=== FILE: README.md ===
# SymptoScan conversation core in Dafny

SymptoScan is a symptom-checking chatbot that comes as two Streamlit scripts:

- `SymptoScan.py` uses a language model.
- `symptoscan.py` works locally only.

Both scripts run the same conversational controller. This project models that controller and proves properties of it.

The controller keeps a phase (`current_state`) and three lists in Streamlit's session state:

- the candidate queue (`possible_diseases`);
- the checklist pair `[row_index, symptoms not yet asked]` (`current_symptom`);
- the confirmed symptoms (`experiencing_symptoms`).

Each user message runs the script once, and so does each `st.rerun()`. A run takes exactly one branch of the phase dispatch.

## How it is modelled

- **One run is a pure function.** `Step(state, input, tables, oracles)` returns a `Run`. A `Run` holds:
  - the new state;
  - the kind of bot message written, if any;
  - whether the run ended in `st.rerun()`.

  A run that raises is a `Crash`. It carries the state as mutated before the exception and the Python error that was raised. The errors are `IndexError` (`IndexOutOfRange`), `ZeroDivisionError` (`DivisionByZero`), `.item()` on a non-unique row (`RowNotUnique`) an unparsable language-model reply (`MalformedReply`), and the `ValueError` the TF-IDF vectoriser raises over an empty column (`VectorizerRejected`).
- **`Converse`** (one per script) runs one input and then every rerun after it. It proves that the reruns end, and that they end in a phase that waits for the user.
- **`dialogue.dfy`** (module `Dialogue`) holds what both scripts share:
  - the phase, the table rows and the `Core` state;
  - the exact two-spelling commands;
  - the checklist split `row[2].split(", ")`;
  - the likelihood test;
  - the reactions of the phase branches that are identical in both scripts.
- **`assisted.dfy`** (module `AssistedScan`) wraps `Core` in a `Session`. The `Session` adds the `last_symptom` latch and the two chat histories that "summarize" reads and that are trimmed at the start of every run.
- **`local.dfy`** (module `LocalScan`) is the local script. It has no histories, latch, "stop" or "summarize".
- **`ranking.dfy`**, **`text.dfy`** and **`tokens.dfy`** model the pure parts of `get_most_similar_response`:
  - `str.strip`;
  - the `re.sub` character filter;
  - the stop-word/part-of-speech token filter;
  - `argsort()[::-1][:top_k]`;
  - the best score ×100;
  - resolving a picked text back to its unique row.
- **`base.dfy`** holds `Option`/`Result`, the fault kinds and an order-preserving `Filter`.
- **Oracles.** Similarity scores, spaCy tokens and every language-model answer come from values passed in by the caller:
  - `Engine`: the spaCy pipeline and the TF-IDF/cosine scorer.
  - `Oracles.diseaseLookup`: the language model's parsed top-3 table, or `None` when the reply does not parse.

  The language model's recommendation and summary texts are represented only by the kind of message written.

Behaviour of the code that a reader might not expect, and that the model keeps:

- **Tie order.** The ranking is NumPy's default `argsort()` reversed (symptoscan.py:56), which fixes no order among equal scores. The model puts the higher row first among equal scores. Every property proved about ranking holds whatever the tie order.
- **Likelihood divisor.** The likelihood divides by `len(current_symptom)` (SymptoScan.py:331), and `current_symptom` is always the two-element pair `[row_index, symptoms]`, not the checklist. So a calculation succeeds exactly when at least two symptoms were confirmed (2 of 5 already confirms), and an empty `current_symptom` raises `ZeroDivisionError`.
- **Reported disease.** The code reports `possible_diseases[0]` after the pop that precedes the calculation. That is the candidate behind the one whose symptoms were just asked. The last candidate's checklist never reaches a calculation.
- **Name match.** In `SymptoScan.py` a good name match enters IS_ASKING without filling the queue, so a following "yes" raises `IndexError`.
- **Dead check.** The `responses == "FALSE"` test compares a list with a string. It never holds.

## Model

| member | source | states |
|---|---|---|
| Base.Filter | symptoscan.py:41 | a list comprehension keeps exactly the elements satisfying the test, in their original order, each as often as it occurred |
| Text.Find | SymptoScan.py:314 | the position `str.split` cuts at is an occurrence of the separator, with no earlier occurrence; when there is none, the separator does not occur anywhere |
| Text.Split | symptoscan.py:160 | `split(", ")` yields at least one piece, and no piece contains the separator |
| Text.JoinSplit | symptoscan.py:194 | joining the pieces of `row[2].split(", ")` with ", " gives back `row[2]` |
| Text.SplitJoin | symptoscan.py:207 | splitting a ", "-join of separator-free pieces gives back the pieces, so split and join are inverse |
| Text.JoinEnds | symptoscan.py:41 | `sep.join(pieces)` is empty for no pieces, starts with the first piece (followed by the separator when more follow) and ends with the last piece |
| Text.DropLeading | SymptoScan.py:124 | `strip()` removes a leading run consisting only of whitespace and stops at the first non-whitespace character |
| Text.DropTrailing | SymptoScan.py:124 | `strip()` removes a trailing run consisting only of whitespace and stops at the last non-whitespace character |
| Text.StripCutsSpaceOnly | SymptoScan.py:124 | cutting a leading and then a trailing whitespace run leaves a slice of the text with only whitespace outside it |
| Text.Strip | SymptoScan.py:124 | the stripped query is a contiguous slice of the query with only whitespace outside it, and it neither starts nor ends with whitespace |
| Text.RemoveSpecial | symptoscan.py:34-35 | after the `re.sub` only characters of `[a-zA-z0-9\s()[]{}]` remain, each allowed character is kept as often as it occurred, and the output is a subsequence of the input |
| Text.RemoveSpecialIdempotent | symptoscan.py:34-35 | filtering twice equals filtering once, and the filter leaves a text unchanged exactly when all of its characters are allowed |
| Text.CleanQuery | SymptoScan.py:123-124 | the cleaned query is a subsequence of the stripped query (and so of the raw one), contains allowed characters only, and keeps every allowed character of the stripped query exactly as often as it occurs there, which fixes it as the filter of the stripped query |
| Text.CleanQueryNotIdempotent | symptoscan.py:35 | strip-then-filter is not idempotent: "! a" cleans to " a", which cleans again to "a" |
| Text.CaretUnderscoreBacktickSurvive | symptoscan.py:34 | the range `A-z` also lets `^`, `_`, the backtick and `\` through the filter |
| Tokens.KeptTokensSpec | symptoscan.py:40-41 | a token is dropped exactly when it is a stop word and its tag is PRON, PROPN, AUX, CCONJ or NUM; the kept tokens stay in order |
| Tokens.FilteredQueryWords | SymptoScan.py:130 | when no kept token contains a space, splitting the single-space join recovers exactly the kept tokens' texts |
| Tokens.FilteredQueryEnds | symptoscan.py:41 | the filtered query is empty when no token is kept, and otherwise starts with the first kept token's text and ends with the last one's |
| Ranking.Insert | symptoscan.py:56 | inserting a row into a ranking keeps it ordered by non-increasing score, duplicate-free and in range |
| Ranking.RankPrefix | symptoscan.py:56 | the ranking of rows 0..n-1 holds each of them once, ordered by non-increasing score |
| Ranking.TopK | symptoscan.py:56 | `argsort()[::-1][:k]` picks `min(k, n)` distinct in-range rows, best first, and no row left out scores higher than a row taken |
| Ranking.TopIsBest | SymptoScan.py:148 | the first picked row has the maximum score of the column |
| Ranking.PickedFacts | symptoscan.py:56-59 | with a non-empty column and `top_k` of at least 1 some row is picked, no row scores more than the first picked one, and in a column without repeated values every picked text resolves to its own row |
| Ranking.Scores | symptoscan.py:33-53 | every row is scored against the query after stripping, the special-character filter and the token filter, not against the raw query |
| Ranking.SameFilteredQuerySameScores | symptoscan.py:33-53 | two queries that clean and filter to the same text get the same score on every row |
| Ranking.RowsEqual | symptoscan.py:66 | `df.loc[df[column] == t]` holds exactly the rows whose value is `t`, ascending |
| Ranking.Resolve | symptoscan.py:66-67 | `.index.item()` succeeds exactly when one row holds the text, and returns that row; otherwise it raises |
| Ranking.ResolveAll | symptoscan.py:64-67 | resolving the picked texts succeeds exactly when every picked text has a unique row, and then returns the picked rows themselves |
| Ranking.DistinctTextsAreUnique | SymptoScan.py:154-156 | in a column without repeated values, every picked text resolves to its own row |
| Ranking.MostSimilar | symptoscan.py:44-69 | the result is a top-k selection with the best score ×100. An empty column makes the vectoriser raise `ValueError`, and `top_k = 0` raises `IndexError`. A column with distinct values never fails; otherwise failure is a non-unique row |
| Ranking.MostSimilarResponse | SymptoScan.py:121-158 | the whole lookup over the engine's scores: top-k rows, a score equal to 100 × the first row's score and at least 100 × every row's score, `ValueError` on an empty column, `IndexError` for `top_k = 0`, and otherwise failure only on a repeated value |
| Dialogue.Activate | SymptoScan.py:314 | `[row_index, row[2].split(", ")]` is a pair for the candidate's row with a non-empty checklist whose ", "-join is `row[2]`, and no checklist entry contains the separator |
| Dialogue.Reset | SymptoScan.py:257-260 | every reset returns to NOT_ASKING with an empty queue, no checklist and no confirmed symptoms, whatever state it started from |
| Dialogue.LikelihoodReached | SymptoScan.py:331-333 | the likelihood test raises `ZeroDivisionError` exactly when `current_symptom` is empty, and otherwise succeeds exactly when at least 2 symptoms were confirmed |
| Dialogue.Confirm | SymptoScan.py:289-302 | "yes" in IS_ASKING succeeds exactly when the queue is non-empty, confirms its front and resets; on an empty queue it raises `IndexError` with nothing changed |
| Dialogue.Reject | SymptoScan.py:304-317 | any other answer with at most one candidate goes to SCAN_FAILED with the queue untouched; otherwise the front is dropped and the new front's checklist is loaded for ASKING_SYMPTOM |
| Dialogue.FailScan | SymptoScan.py:319-328 | SCAN_FAILED writes the failure notice, resets and reruns |
| Dialogue.Calculate | SymptoScan.py:330-353 | the calculation raises on an empty `current_symptom`. With at least 2 confirmed it reports the queue front and resets. Otherwise it clears the confirmed symptoms and reloads the front's checklist for ASKING_SYMPTOM |
| Dialogue.NextSymptom | SymptoScan.py:361-380 | with an exhausted checklist: one candidate left goes to SCAN_FAILED; more pop the front, reload the popped row's checklist and calculate. Otherwise the front symptom is asked with its best-matching explanation row |
| Dialogue.Answer | SymptoScan.py:393-401 | an answer removes exactly the front symptom, records it as confirmed exactly for a yes, and returns to ASKING_SYMPTOM; with no symptom left it raises `IndexError` |
| Dialogue.NextSymptomMoves | SymptoScan.py:361-377 | a question run either pops a candidate on the way to the calculation, or keeps the queue and goes to SCAN_FAILED or the wait for an answer |
| Dialogue.ReportsNextCandidate | SymptoScan.py:330-370 | after an exhausted checklist, a successful calculation reports the candidate behind the one just asked about |
| Dialogue.RetriesNextCandidate | SymptoScan.py:345-370 | after an exhausted checklist, a failed calculation restarts on the new front's full checklist with nothing confirmed |
| AssistedScan.Receive | SymptoScan.py:206-219 | the start of a run leaves a history of at most 15 entries unchanged and otherwise drops only its newest entry, then records the prompt after the trimmed user history |
| AssistedScan.Trim | SymptoScan.py:206-210 | a history of at most 15 entries is left alone; a longer one loses exactly its newest entry |
| AssistedScan.Embed | SymptoScan.py:68-69 | every bot message written is appended to the bot history, and nothing else of the session changes |
| AssistedScan.SummaryReply | SymptoScan.py:226-230 | "summarize" is answered with a summary exactly when the trimmed bot history has at least 5 entries, and with the short-thread notice otherwise |
| AssistedScan.OnRequest | SymptoScan.py:222-254 | NOT_ASKING with a prompt reruns with one message, reaching only NOT_ASKING or IS_ASKING. Help writes the help text and changes nothing else. A failed name lookup raises its error. A name score of at least 50 enters IS_ASKING offering a row of maximal name score, with the queue untouched. Below 50 the language model's table becomes the queue and its first entry is offered; an unparsable reply or an empty table raises |
| AssistedScan.OnVerdict | SymptoScan.py:256-317 | IS_ASKING with a prompt always reruns. Summarize and stop reset with their message. "yes" confirms the front candidate and resets, and raises only when the queue is empty. Any other reply rejects: with at most one candidate only the phase becomes SCAN_FAILED; otherwise the front candidate is dropped and the next one's checklist loaded for ASKING_SYMPTOM, with the confirmed symptoms kept |
| AssistedScan.Step | SymptoScan.py:198-402 | every run records the prompt, adds the message it writes (and only that) to the bot history, moves the phase only along the state diagram, and leaves the conversation and latch unchanged when it does not rerun |
| AssistedScan.TrimBound | SymptoScan.py:206-210 | the trim keeps a history within 16 entries and drops its newest entry, not its oldest |
| AssistedScan.StartMeetsInvariant | SymptoScan.py:44-66 | the initial session state already satisfies the invariant every run keeps |
| AssistedScan.StepPreservesInvariant | SymptoScan.py:198-402 | every run keeps the per-phase shape of the state and the history bounds |
| AssistedScan.RerunDecreases | SymptoScan.py:319-380 | a rerun that reruns again shrinks the queue or moves down calculation, unlatched pause, latched question, scan failure |
| AssistedScan.StopsOnlyWhenAwaitingInput | SymptoScan.py:222-402 | a run that ends without rerunning leaves the conversation state and the latch unchanged (only the histories are trimmed and record the prompt) and sits in NOT_ASKING, IS_ASKING or WAITING_SYMPTOM_ANSWER |
| AssistedScan.CrashCauses | SymptoScan.py:241-290 | with usable tables a run raises only on an unparsable or empty language-model table, or on "yes" with an empty queue |
| AssistedScan.AnswerConsumesFront | SymptoScan.py:393-401 | any answer but stop removes exactly the front symptom, records it exactly for "yes"/"Yes", returns to ASKING_SYMPTOM and clears the latch |
| AssistedScan.UppercaseYesRejects | SymptoScan.py:289-317 | "YES" is no confirmation: it drops the guess like any rejection |
| AssistedScan.YesConfirmsFront | SymptoScan.py:289-302 | "yes"/"Yes" in IS_ASKING with a candidate waiting confirms `possible_diseases[0]`, resets the scan and reruns |
| AssistedScan.OtherReplyRejects | SymptoScan.py:304-317 | in IS_ASKING every reply but summarize, stop and yes reruns silently: with at most one candidate only the phase becomes SCAN_FAILED; otherwise the front candidate is dropped and the next one's checklist is loaded, keeping the confirmed symptoms and the latch |
| AssistedScan.AutomaticRuns | SymptoScan.py:319-380 | SCAN_FAILED fails the scan, WAITING_SYMPTOM_CALCULATION calculates, latched ASKING_SYMPTOM with candidates asks the next symptom, and ASKING_SYMPTOM with no candidates does nothing, whatever the input |
| AssistedScan.UnlatchedRunOnlyLatches | SymptoScan.py:356-359 | ASKING_SYMPTOM without the latch only sets it and reruns, writing nothing and leaving the conversation state and the trimmed histories alone |
| AssistedScan.ResetBranches | SymptoScan.py:256-391 | summarize, stop and yes in IS_ASKING, SCAN_FAILED, a successful calculation and stop in WAITING_SYMPTOM_ANSWER all reset the scan, keep the latch and write their own message: the summary reply, the restart hint, the confirmation of the front candidate, the failure notice, the likely front candidate, and the restart hint |
| AssistedScan.SummarizeGate | SymptoScan.py:226-276 | summarize yields a summary exactly when the trimmed bot history has at least 5 entries, and resets the scan |
| AssistedScan.NameMatchLeavesQueueEmpty | SymptoScan.py:233-239 | a name match of at least 50 enters IS_ASKING with a diagnosis of a diseases row whose name scores highest, and leaves the queue as it was |
| AssistedScan.LookupSeedsQueue | SymptoScan.py:233-251 | over a diseases table with distinct names, when no name scores 50 against the prompt, a non-empty language-model table becomes the queue, its first entry is offered and the run enters IS_ASKING |
| AssistedScan.YesOnEmptyQueueRaises | SymptoScan.py:289-290 | "yes" in IS_ASKING with an empty queue raises `IndexError` |
| AssistedScan.UnseededQueue | SymptoScan.py:233-290 | from a fresh state, confirming a good name match raises instead of confirming |
| AssistedScan.RequestNeverReportsFailure | SymptoScan.py:241-251 | the "FALSE" branch is dead: a NOT_ASKING run never writes the scan-failure notice |
| AssistedScan.Converse | SymptoScan.py:198-402 | one input followed by its reruns ends, keeps the invariant, and leaves a phase that waits for the user |
| LocalScan.OnRequest | symptoscan.py:118-135 | help reruns with help. An empty table makes the vectoriser raise `ValueError`, and any ranking failure raises. Otherwise the run enters IS_ASKING exactly when the top score is above 10, with the 1 to 3 top-ranked rows as the queue; at or below 10 it stays in NOT_ASKING with the failure notice |
| LocalScan.ShortlistIffAboveThreshold | symptoscan.py:123-135 | over a non-empty table with distinct general-symptom texts, a diagnosis request enters IS_ASKING exactly when some row's general symptoms score above 10 against the prompt |
| LocalScan.FreshMeetsInvariant | symptoscan.py:84-94 | the initial conversation state already satisfies the invariant every run keeps |
| LocalScan.RequestKeepsInvariant | symptoscan.py:123-132 | the shortlist that becomes the queue is 1 to 3 rows of the diseases table |
| LocalScan.TailKeepsRows | symptoscan.py:158-159 | dropping the queue front leaves rows of the diseases table |
| LocalScan.Step | symptoscan.py:107-228 | every run moves the phase only along the state diagram, and a run that does not rerun leaves the state unchanged unless it has just asked a symptom question |
| LocalScan.StepPreservesInvariant | symptoscan.py:107-228 | every run keeps the per-phase shape, a non-empty queue in IS_ASKING, and a queue of at most 3 table rows |
| LocalScan.RerunDecreases | symptoscan.py:165-228 | a rerun that reruns again shrinks the queue, lowers the phase rank, or shrinks the checklist |
| LocalScan.NeverCrashes | symptoscan.py:118-228 | with usable tables no run raises |
| LocalScan.StopsOnlyWhenAwaitingInput | symptoscan.py:199-217 | a run that does not rerun waits for the user, and only asking a symptom question changes the state without rerunning |
| LocalScan.OnlyYesConfirms | symptoscan.py:137-163 | only "yes"/"Yes" confirms. Every other answer, "stop" included, rejects: with at most one candidate only the phase becomes SCAN_FAILED; otherwise the front candidate is dropped and the next one's checklist loaded for ASKING_SYMPTOM |
| LocalScan.AutomaticRuns | symptoscan.py:165-217 | SCAN_FAILED fails the scan, WAITING_SYMPTOM_CALCULATION calculates, ASKING_SYMPTOM with candidates asks the next symptom, and ASKING_SYMPTOM with no candidates does nothing, whatever the input |
| LocalScan.AnyInputConsumes | symptoscan.py:219-228 | WAITING_SYMPTOM_ANSWER consumes the front symptom on every run, with or without input, and appends it to the confirmed symptoms exactly for "yes"/"Yes" |
| LocalScan.Converse | symptoscan.py:107-228 | one input followed by its reruns ends in a phase that waits for the user, keeps the invariant, and with usable tables never raises |

## Left out

- Streamlit rendering is left out because it is presentation only. That covers the message log, the typewriter output of `write_bot_message` with its `time.sleep`, the page config, the sidebar quote, the greeting and `pages/Information.py`.
- `disable_chat_input` is left out because it is a UI lock that no branch reads. Submitting a prompt sets it (SymptoScan.py:175-176, 213), and only the branches that assign `disable_chat_input = False` clear it. Several branches rerun with it still set:
  - the rejection that goes to SCAN_FAILED (SymptoScan.py:307-309);
  - the latch branch, which sets it to `True` itself (SymptoScan.py:356-359);
  - the exhausted-checklist branches to SCAN_FAILED and to the calculation (SymptoScan.py:361-370);
  - the answer branch (SymptoScan.py:393-402).

  A later run of the same chain clears it. A run that raises never reaches a clearing line, so the chat input then stays disabled. The model does not show this.
- TF-IDF vectorisation and cosine similarity are floating point and come from scikit-learn. They are the `Engine.similarity` oracle, and scores are exact reals.
- The scorer oracle never raises. Only the empty-column `ValueError` is modelled. scikit-learn also raises `ValueError` on other inputs, such as an empty vocabulary or "no terms remain" after `max_df` pruning of a one-row column. The following contracts rely on that:
- LocalScan.NeverCrashes: holds only for a scorer that does not raise; real TF-IDF can still raise `ValueError` on a non-empty table.
- AssistedScan.CrashCauses: lists only the causes a non-raising scorer leaves; a `ValueError` from TF-IDF is not among them.
- Ranking.MostSimilar: "a column with distinct values never fails" holds only for a scorer that does not raise.
- spaCy tokenisation, stop-word flags and part-of-speech tags come from the `Engine.nlp` oracle.
- The OpenAI calls are left out: `get_most_similar_diseases`, `get_disease_response` and `summarize_chat_threads`.
  - The parsed top-3 table is the `diseaseLookup` oracle. A reply pandas cannot parse is `None` and raises.
  - The recommendation and summary texts are represented only by the kind of message they produce.
- Dataset loading from URL and disk is left out. The tables are parameters.
- Message wording, f-string formatting and `.capitalize()` are left out. Only the kind of message, and the disease or symptom it names, is modelled.
- The `A-z` quirk and `\s` are modelled on code points; Unicode normalisation is not modelled.
- Ranking.TopK: equal scores are ordered higher row first. NumPy's unstable default sort may order ties differently, so only tie-independent properties are stated.
- Dialogue.Calculate and Dialogue.LikelihoodReached: exact rational arithmetic is used in place of Python's float division. For a divisor of 2 both give the same verdict.
- AssistedScan.OnRequest: rows returned by the language model are taken as given. The model does not check that they are rows of the diseases table, because the script does not check either.
- LocalScan.ShortlistIffAboveThreshold: the score-free form of the threshold test is stated only for tables whose general-symptom texts are all distinct. LocalScan.OnRequest states the threshold test, in terms of the top score, for every table on which the ranking succeeds.
- AssistedScan.LookupSeedsQueue: stated for diseases tables whose names are all distinct, with every name scoring below 50. AssistedScan.OnRequest states the same outcome for every table on which the name ranking succeeds with a top score below 50.

=== FILE: assisted.dfy ===
/** The language-model-assisted script, `SymptoScan.py`. Besides the shared
    conversation state it keeps the two chat histories that "summarize"
    reads and the `last_symptom` latch that makes ASKING_SYMPTOM pause for
    one run before it asks. The language model's answers come from oracles. */
module AssistedScan {
  import opened Base
  import opened Ranking
  import opened Dialogue

  /** The session state of `SymptoScan.py`. `latched` is `last_symptom is not None`. */
  datatype Session = Session(core: Core, latched: bool, userThreads: seq<string>, botThreads: seq<Message>)

  /** What the script asks of its collaborators: the matcher's engine, and
      the language model's top-3 disease table for a prompt, already parsed;
      `None` when the reply does not parse as such a table. */
  datatype Oracles = Oracles(engine: Engine, diseaseLookup: string -> Option<seq<Candidate>>)

  const Start := Session(Fresh, false, [], [])

  /** Histories longer than this lose an entry at the start of each run. */
  const HistoryLimit: nat := 15

  /** A chat needs this many bot messages before it is summarized. */
  const SummaryMinimum: nat := 5

  /** A top name match at least this good (in percent) is believed outright. */
  const NameMatchThreshold: real := 50.0

  // ---------------------------------------------------------------------
  // One run

  /** `after` is the history `before` after the trim at the start of a run:
      unchanged up to the limit, otherwise without its newest entry. */
  predicate TrimmedFrom<T(==)>(after: seq<T>, before: seq<T>)
  {
    if |before| <= HistoryLimit then after == before
    else after + [before[|before| - 1]] == before
  }

  /** A history longer than the limit loses its last (newest) entry. */
  function Trim<T(==)>(h: seq<T>): (r: seq<T>)
    ensures TrimmedFrom(r, h)
  {
    if |h| > HistoryLimit then
      assert h[..|h| - 1] + [h[|h| - 1]] == h;
      h[..|h| - 1]
    else h
  }

  /** The start of every run: both histories are trimmed, then the prompt, if any, is recorded. */
  function Receive(s: Session, input: Option<string>): (r: Session)
    ensures r.core == s.core && r.latched == s.latched
    ensures |s.userThreads| <= HistoryLimit + 1 ==> |r.userThreads| <= HistoryLimit + 1
    ensures |s.botThreads| <= HistoryLimit + 1 ==> |r.botThreads| <= HistoryLimit
    ensures TrimmedFrom(r.botThreads, s.botThreads)
    ensures input.None? ==> TrimmedFrom(r.userThreads, s.userThreads)
    ensures input.Some? ==>
      && |r.userThreads| > 0 && r.userThreads[|r.userThreads| - 1] == input.value
      && TrimmedFrom(r.userThreads[..|r.userThreads| - 1], s.userThreads)
  {
    var users := Trim(s.userThreads);
    var r := s.(userThreads := if input.Some? then users + [input.value] else users,
                botThreads := Trim(s.botThreads));
    assert input.Some? ==> r.userThreads[..|r.userThreads| - 1] == users;
    r
  }

  function Spoken(said: Option<Message>): seq<Message>
  {
    if said.Some? then [said.value] else []
  }

  /** Carries a reaction of the shared state into the session; a message
      written is also recorded in the bot history. */
  function Embed(s: Session, r: Run<Core>): (e: Run<Session>)
    ensures e.Run? == r.Run? && e.state.core == r.state
    ensures e.state.latched == s.latched && e.state.userThreads == s.userThreads
    ensures e.Run? ==> e.said == r.said && e.rerun == r.rerun
    ensures e.Crash? ==> e.fault == r.fault && e.state.botThreads == s.botThreads
    ensures e.Run? ==> e.state.botThreads == s.botThreads + Spoken(r.said)
  {
    match r
    case Run(c, said, rerun) => Run(s.(core := c, botThreads := s.botThreads + Spoken(said)), said, rerun)
    case Crash(c, f) => Crash(s.(core := c), f)
  }

  /** The answer to "summarize", judged on the trimmed bot history. */
  function SummaryReply(s: Session): (m: Message)
    ensures m == Summary || m == SummaryTooShort
    ensures m == Summary <==> |s.botThreads| >= SummaryMinimum
  {
    if |s.botThreads| >= SummaryMinimum then Summary else SummaryTooShort
  }

  /** One run of the script with the chat input `input` (`None` when the run
      was started by `st.rerun()`). Whatever the branch, the prompt is
      recorded and the one message written, if any, enters the bot history;
      the phase moves along the state diagram; a run that does not rerun
      leaves the conversation where it was. */
  function Step(s: Session, input: Option<string>, t: Tables, o: Oracles): (r: Run<Session>)
    ensures r.state.userThreads == Receive(s, input).userThreads
    ensures r.Run? ==> r.state.botThreads == Receive(s, input).botThreads + Spoken(r.said)
    ensures r.Crash? ==> r.state.botThreads == Receive(s, input).botThreads
    ensures r.Run? ==> Edge(s.core.phase, r.state.core.phase)
    ensures r.Run? && !r.rerun ==> r.state.core == s.core && r.state.latched == s.latched
  {
    var s' := Receive(s, input);
    var c := s.core;
    match c.phase
    case NotAsking =>
      if input.None? then Run(s', None, false) else OnRequest(s', input.value, t, o)
    case IsAsking =>
      if input.None? then Run(s', None, false) else OnVerdict(s', input.value)
    case ScanFailed => Embed(s', FailScan(c))
    case WaitingSymptomCalculation => Embed(s', Calculate(c))
    case AskingSymptom =>
      if |c.queue| == 0 then Run(s', None, false)
      else if !s.latched then Run(s'.(latched := true), None, true)
      else
        NextSymptomMoves(c, t, o.engine, true);
        Embed(s', NextSymptom(c, t, o.engine, true))
    case WaitingSymptomAnswer =>
      if input.Some? && IsStop(input.value) then Embed(s', Run(Reset(c), Some(RestartHint), true))
      else if input.None? then Run(s', None, false)
      else
        match Embed(s', Answer(c, IsYes(input.value)))
        case Run(s2, said, rerun) => Run(s2.(latched := false), said, rerun)
        case Crash(s2, f) => Crash(s2, f)
  }

  /** NOT_ASKING with a prompt: help, summary, or a diagnosis guess. A name
      match of at least 50% is offered without filling the candidate queue;
      otherwise the language model's table becomes the queue. */
  function OnRequest(s: Session, p: string, t: Tables, o: Oracles): (r: Run<Session>)
    requires s.core.phase == NotAsking
    ensures r.state.latched == s.latched && r.state.userThreads == s.userThreads
    ensures |r.state.botThreads| <= |s.botThreads| + 1
    ensures r.Run? ==> r.state.botThreads == s.botThreads + Spoken(r.said)
    ensures r.Crash? ==> r.state.botThreads == s.botThreads
    ensures Consistent(s.core) ==> Consistent(r.state.core)
    ensures r.Run? ==> r.rerun && r.said.Some?
    ensures r.Run? ==> r.state.core.phase in {NotAsking, IsAsking}
    ensures r.Run? ==> r.said.value in {HelpText, Summary, SummaryTooShort} || r.said.value.Diagnosis?
    ensures r.Crash? && Usable(t) ==> o.diseaseLookup(p).None? || o.diseaseLookup(p) == Some([])
    ensures !IsHelp(p) && !IsSummarize(p) && MostSimilarResponse(DiseaseNames(t), p, 1, o.engine).Err? ==>
      r == Crash(s, MostSimilarResponse(DiseaseNames(t), p, 1, o.engine).fault)
    ensures !IsHelp(p) && !IsSummarize(p) && MostSimilarResponse(DiseaseNames(t), p, 1, o.engine).Ok? ==>
      var m := MostSimilarResponse(DiseaseNames(t), p, 1, o.engine).value;
      && (m.score >= NameMatchThreshold ==> NameMatched(s, r, p, t, o))
      && (m.score < NameMatchThreshold ==> LookupSeeded(s, r, p, o))
    ensures IsHelp(p) ==> r.Run? && r.rerun && r.state.core == s.core && r.said == Some(HelpText)
  {
    var c := s.core;
    if IsHelp(p) then Embed(s, Run(c, Some(HelpText), true))
    else if IsSummarize(p) then Embed(s, Run(c, Some(SummaryReply(s)), true))
    else
      match MostSimilarResponse(DiseaseNames(t), p, 1, o.engine)
      case Err(f) => Crash(s, f)
      case Ok(m) =>
        if m.score >= NameMatchThreshold then
          var guess := CandidatesAt(t, m.rows)[0];
          assert guess == Candidate(m.rows[0], t.diseases[m.rows[0]]);
          assert forall j :: 0 <= j < |t.diseases| ==>
            100.0 * Scores(o.engine, DiseaseNames(t), p)[j] <= 100.0 * Scores(o.engine, DiseaseNames(t), p)[m.rows[0]];
          Embed(s, Run(c.(phase := IsAsking), Some(Diagnosis(guess)), true))
        else
          match o.diseaseLookup(p)
          case None => Crash(s, MalformedReply)
          case Some(candidates) =>
            if |candidates| == 0 then Crash(s, IndexOutOfRange)
            else Embed(s, Run(c.(phase := IsAsking, queue := candidates), Some(Diagnosis(candidates[0])), true))
  }

  /** A name match: IS_ASKING with nothing else changed, offering the
      diseases row whose name scores highest against the prompt. */
  predicate NameMatched(s: Session, r: Run<Session>, p: string, t: Tables, o: Oracles)
  {
    && r.Run? && r.state.core == s.core.(phase := IsAsking)
    && r.said.Some? && r.said.value.Diagnosis? && IsTableRow(t, r.said.value.guess)
    && forall j :: 0 <= j < |t.diseases| ==>
         Scores(o.engine, DiseaseNames(t), p)[j] <= Scores(o.engine, DiseaseNames(t), p)[r.said.value.guess.row]
  }

  /** No name match: the language model's table becomes the queue and its
      first entry is offered; an unparsable reply or an empty table raises. */
  predicate LookupSeeded(s: Session, r: Run<Session>, p: string, o: Oracles)
  {
    match o.diseaseLookup(p)
    case None => r == Crash(s, MalformedReply)
    case Some(cs) =>
      if cs == [] then r == Crash(s, IndexOutOfRange)
      else r.Run? && r.state.core == s.core.(phase := IsAsking, queue := cs) && r.said == Some(Diagnosis(cs[0]))
  }

  /** IS_ASKING with a prompt: summarize and stop reset, yes confirms, anything else rejects. */
  function OnVerdict(s: Session, p: string): (r: Run<Session>)
    requires s.core.phase == IsAsking
    ensures r.state.latched == s.latched && r.state.userThreads == s.userThreads
    ensures |r.state.botThreads| <= |s.botThreads| + 1
    ensures r.Run? ==> r.state.botThreads == s.botThreads + Spoken(r.said)
    ensures r.Crash? ==> r.state.botThreads == s.botThreads
    ensures r.Run? ==> r.state.core.phase in {NotAsking, AskingSymptom, ScanFailed}
    ensures Consistent(s.core) ==> Consistent(r.state.core)
    ensures r.Run? ==> r.rerun
    ensures r.Crash? ==> IsYes(p) && s.core.queue == [] && r.fault == IndexOutOfRange
    ensures IsYes(p) && |s.core.queue| > 0 ==>
      r.Run? && r.rerun && r.state.core == Fresh && r.said == Some(Confirmed(s.core.queue[0]))
    ensures IsSummarize(p) ==> r.Run? && r.state.core == Fresh && r.said == Some(SummaryReply(s))
    ensures IsStop(p) ==> r.Run? && r.state.core == Fresh && r.said == Some(RestartHint)
    ensures !IsSummarize(p) && !IsStop(p) && !IsYes(p) ==>
      && r.Run? && r.said.None?
      && (|s.core.queue| <= 1 ==> r.state.core == s.core.(phase := ScanFailed))
      && (|s.core.queue| >= 2 ==>
            r.state.core == s.core.(phase := AskingSymptom, queue := s.core.queue[1..], checklist := Activate(s.core.queue[1])))
  {
    var c := s.core;
    if IsSummarize(p) then Embed(s, Run(Reset(c), Some(SummaryReply(s)), true))
    else if IsStop(p) then Embed(s, Run(Reset(c), Some(RestartHint), true))
    else if IsYes(p) then Embed(s, Confirm(c))
    else Embed(s, Reject(c))
  }

  // ---------------------------------------------------------------------
  // What holds between runs

  predicate Invariant(s: Session)
  {
    Consistent(s.core) && |s.userThreads| <= HistoryLimit + 1 && |s.botThreads| <= HistoryLimit + 1
  }

  /** Position in the chain of runs a conversation goes through without
      input: calculation, then the unlatched pause, then the question. */
  function Rank(s: Session): nat
  {
    match s.core.phase
    case NotAsking => 0
    case IsAsking => 0
    case WaitingSymptomAnswer => 0
    case ScanFailed => 1
    case AskingSymptom => if s.latched then 2 else 3
    case WaitingSymptomCalculation => 4
  }

  /** A new session already keeps the invariant. */
  lemma StartMeetsInvariant()
    ensures Invariant(Start)
  {
  }

  /** The history bound: a history never grows past 16 entries, and a
      trimmed history is what was there minus its newest entry. */
  lemma TrimBound<T>(h: seq<T>, x: T)
    requires |h| <= HistoryLimit + 1
    ensures |Trim(h)| <= HistoryLimit && |Trim(h) + [x]| <= HistoryLimit + 1
    ensures |h| > HistoryLimit ==> Trim(h) + [h[|h| - 1]] == h && Trim(h)[0] == h[0]
    ensures |h| <= HistoryLimit ==> Trim(h) == h
  {
  }

  lemma StepPreservesInvariant(s: Session, input: Option<string>, t: Tables, o: Oracles)
    requires Invariant(s)
    ensures Invariant(Step(s, input, t, o).state)
  {
    var r := Step(s, input, t, o);
    var s' := Receive(s, input);
    var c := s.core;
    match c.phase
    case NotAsking =>
    case IsAsking =>
    case ScanFailed =>
    case WaitingSymptomCalculation =>
    case AskingSymptom =>
    case WaitingSymptomAnswer =>
  }

  /** A run started by `st.rerun()` that reruns again moves strictly down
      the order (fewer candidates, else a lower rank), so reruns end. */
  lemma RerunDecreases(s: Session, t: Tables, o: Oracles)
    ensures var r := Step(s, None, t, o);
      r.Run? && r.rerun ==>
        || |r.state.core.queue| < |s.core.queue|
        || (|r.state.core.queue| == |s.core.queue| && Rank(r.state) < Rank(s))
  {
    var s' := Receive(s, None);
    var c := s.core;
    match c.phase
    case NotAsking =>
    case IsAsking =>
    case ScanFailed =>
      assert Step(s, None, t, o) == Embed(s', FailScan(c));
    case WaitingSymptomCalculation =>
      assert Step(s, None, t, o) == Embed(s', Calculate(c));
    case AskingSymptom =>
      if |c.queue| > 0 && s.latched {
        NextSymptomMoves(c, t, o.engine, true);
        assert Step(s, None, t, o) == Embed(s', NextSymptom(c, t, o.engine, true));
      }
    case WaitingSymptomAnswer =>
  }

  /** Under the invariant, a run that neither raises nor reruns leaves the
      conversation in a phase that waits for the user. */
  lemma StopsOnlyWhenAwaitingInput(s: Session, input: Option<string>, t: Tables, o: Oracles)
    requires Invariant(s)
    ensures var r := Step(s, input, t, o);
      r.Run? && !r.rerun ==> AwaitsInput(r.state.core.phase) && r.state.core == s.core
  {
  }

  /** With usable tables, a run raises only when the language model's reply
      is unusable, or when "yes" meets an empty queue (the name-match path). */
  lemma CrashCauses(s: Session, input: Option<string>, t: Tables, o: Oracles)
    requires Invariant(s) && Usable(t)
    ensures var r := Step(s, input, t, o);
      r.Crash? ==>
        || (s.core.phase == NotAsking && input.Some?
            && (o.diseaseLookup(input.value).None? || o.diseaseLookup(input.value) == Some([])))
        || (s.core.phase == IsAsking && input.Some? && IsYes(input.value) && s.core.queue == [])
  {
    var s' := Receive(s, input);
    match s.core.phase
    case NotAsking =>
    case IsAsking =>
    case ScanFailed =>
    case WaitingSymptomCalculation =>
    case AskingSymptom =>
    case WaitingSymptomAnswer =>
  }

  /** WAITING_SYMPTOM_ANSWER with an answer other than stop: exactly the
      front symptom leaves the checklist, it is recorded as experienced
      exactly when the answer is "yes"/"Yes", the phase returns to
      ASKING_SYMPTOM and the latch is cleared. */
  lemma AnswerConsumesFront(s: Session, p: string, t: Tables, o: Oracles)
    requires Invariant(s) && s.core.phase == WaitingSymptomAnswer && !IsStop(p)
    ensures var r := Step(s, Some(p), t, o);
      && r.Run? && r.rerun && !r.state.latched
      && r.state.core.phase == AskingSymptom
      && r.state.core.queue == s.core.queue
      && [s.core.checklist.remaining[0]] + r.state.core.checklist.remaining == s.core.checklist.remaining
      && (IsYes(p) <==> r.state.core.confirmed == s.core.confirmed + [s.core.checklist.remaining[0]])
      && (!IsYes(p) <==> r.state.core.confirmed == s.core.confirmed)
  {
  }

  /** Commands are exact: in IS_ASKING, "YES" is not a confirmation but a rejection. */
  lemma UppercaseYesRejects(s: Session, t: Tables, o: Oracles)
    requires Invariant(s) && s.core.phase == IsAsking
    ensures var r := Step(s, Some("YES"), t, o);
      && r.Run? && r.said.None?
      && (|s.core.queue| <= 1 ==> r.state.core.phase == ScanFailed)
      && (|s.core.queue| >= 2 ==> r.state.core.phase == AskingSymptom && r.state.core.queue == s.core.queue[1..])
  {
    OtherReplyRejects(s, "YES", t, o);
  }

  /** In IS_ASKING, "yes" or "Yes" with a candidate waiting confirms the
      front candidate, the one offered, and resets the scan. */
  lemma YesConfirmsFront(s: Session, p: string, t: Tables, o: Oracles)
    requires s.core.phase == IsAsking && IsYes(p) && |s.core.queue| > 0
    ensures var r := Step(s, Some(p), t, o);
      && r.Run? && r.rerun && r.state.core == Fresh && r.state.latched == s.latched
      && r.said == Some(Confirmed(s.core.queue[0]))
  {
    assert Step(s, Some(p), t, o) == OnVerdict(Receive(s, Some(p)), p);
  }

  /** In IS_ASKING every reply other than summarize, stop and yes rejects
      the guess: with at most one candidate the scan fails with nothing else
      changed; otherwise the front candidate is dropped and the next one's
      checklist is loaded, keeping the confirmed symptoms. */
  lemma OtherReplyRejects(s: Session, p: string, t: Tables, o: Oracles)
    requires s.core.phase == IsAsking && !IsSummarize(p) && !IsStop(p) && !IsYes(p)
    ensures var r := Step(s, Some(p), t, o);
      var q := s.core.queue;
      && r.Run? && r.rerun && r.said.None? && r.state.latched == s.latched
      && (|q| <= 1 ==> r.state.core == s.core.(phase := ScanFailed))
      && (|q| >= 2 ==> r.state.core == s.core.(phase := AskingSymptom, queue := q[1..], checklist := Activate(q[1])))
  {
    assert Step(s, Some(p), t, o) == OnVerdict(Receive(s, Some(p)), p);
  }

  /** The runs that need no input follow the phase alone: SCAN_FAILED fails
      the scan, WAITING_SYMPTOM_CALCULATION calculates, and ASKING_SYMPTOM
      with candidates left asks the next symptom once the latch is set. */
  lemma AutomaticRuns(s: Session, input: Option<string>, t: Tables, o: Oracles)
    ensures s.core.phase == ScanFailed ==>
      Step(s, input, t, o) == Embed(Receive(s, input), FailScan(s.core))
    ensures s.core.phase == WaitingSymptomCalculation ==>
      Step(s, input, t, o) == Embed(Receive(s, input), Calculate(s.core))
    ensures s.core.phase == AskingSymptom && |s.core.queue| > 0 && s.latched ==>
      Step(s, input, t, o) == Embed(Receive(s, input), NextSymptom(s.core, t, o.engine, true))
    ensures s.core.phase == AskingSymptom && |s.core.queue| == 0 ==>
      Step(s, input, t, o) == Run(Receive(s, input), None, false)
  {
  }

  /** ASKING_SYMPTOM without the latch only sets it and reruns: nothing is
      written, the conversation state is untouched, and the histories only
      get their usual trim. */
  lemma UnlatchedRunOnlyLatches(s: Session, input: Option<string>, t: Tables, o: Oracles)
    requires s.core.phase == AskingSymptom && |s.core.queue| > 0 && !s.latched
    ensures var r := Step(s, input, t, o);
      && r.Run? && r.rerun && r.said.None?
      && r.state.core == s.core && r.state.latched
      && r.state.userThreads == Receive(s, input).userThreads
      && r.state.botThreads == Receive(s, input).botThreads
  {
  }

  /** Every resetting branch forgets the scan and leaves the latch alone:
      summarize, stop and yes in IS_ASKING, SCAN_FAILED, a successful
      calculation, and stop while waiting for an answer. */
  lemma ResetBranches(s: Session, input: Option<string>, t: Tables, o: Oracles)
    requires Invariant(s)
    requires
      || (s.core.phase == IsAsking && input.Some?
          && (IsSummarize(input.value) || IsStop(input.value) || (IsYes(input.value) && |s.core.queue| > 0)))
      || s.core.phase == ScanFailed
      || (s.core.phase == WaitingSymptomCalculation && |s.core.confirmed| >= 2)
      || (s.core.phase == WaitingSymptomAnswer && input.Some? && IsStop(input.value))
    ensures var r := Step(s, input, t, o);
      && r.Run? && r.rerun && r.state.core == Fresh && r.state.latched == s.latched && r.said.Some?
      && (s.core.phase == IsAsking && IsSummarize(input.value) ==> r.said == Some(SummaryReply(Receive(s, input))))
      && (s.core.phase == IsAsking && IsStop(input.value) ==> r.said == Some(RestartHint))
      && (s.core.phase == IsAsking && IsYes(input.value) ==> r.said == Some(Confirmed(s.core.queue[0])))
      && (s.core.phase == ScanFailed ==> r.said == Some(ScanFailedNotice))
      && (s.core.phase == WaitingSymptomCalculation ==> r.said == Some(Likely(s.core.queue[0])))
      && (s.core.phase == WaitingSymptomAnswer ==> r.said == Some(RestartHint))
  {
  }

  /** "summarize" is answered with a summary only once the trimmed bot
      history has five entries; in IS_ASKING it resets the scan either way,
      in NOT_ASKING it changes nothing but the histories. */
  lemma SummarizeGate(s: Session, p: string, t: Tables, o: Oracles)
    requires Invariant(s) && IsSummarize(p) && (s.core.phase == NotAsking || s.core.phase == IsAsking)
    ensures var r := Step(s, Some(p), t, o);
      && r.Run? && r.rerun
      && (r.said == Some(Summary) <==> |Trim(s.botThreads)| >= SummaryMinimum)
      && (r.said == Some(SummaryTooShort) <==> |Trim(s.botThreads)| < SummaryMinimum)
      && r.state.core == Fresh
  {
  }

  /** A good name match is offered in IS_ASKING with the queue still empty. */
  lemma NameMatchLeavesQueueEmpty(s: Session, p: string, t: Tables, o: Oracles)
    requires s.core.phase == NotAsking && !IsHelp(p) && !IsSummarize(p)
    requires var m := MostSimilarResponse(DiseaseNames(t), p, 1, o.engine);
      m.Ok? && m.value.score >= NameMatchThreshold
    ensures var r := Step(s, Some(p), t, o);
      && r.Run? && r.state.core == s.core.(phase := IsAsking)
      && r.said.Some? && r.said.value.Diagnosis?
      && IsTableRow(t, r.said.value.guess)
      && forall j :: 0 <= j < |t.diseases| ==>
           Scores(o.engine, DiseaseNames(t), p)[j] <= Scores(o.engine, DiseaseNames(t), p)[r.said.value.guess.row]
  {
    var s' := Receive(s, Some(p));
    assert Step(s, Some(p), t, o) == OnRequest(s', p, t, o);
  }

  /** When no disease name scores 50 against the prompt, the language
      model's disease table is the queue: its first entry is offered and the
      rest wait their turn. */
  lemma LookupSeedsQueue(s: Session, p: string, t: Tables, o: Oracles)
    requires s.core.phase == NotAsking && !IsHelp(p) && !IsSummarize(p)
    requires |t.diseases| > 0 && AllDistinct(DiseaseNames(t))
    requires forall j :: 0 <= j < |t.diseases| ==> 100.0 * Scores(o.engine, DiseaseNames(t), p)[j] < NameMatchThreshold
    requires o.diseaseLookup(p).Some? && o.diseaseLookup(p).value != []
    ensures var r := Step(s, Some(p), t, o);
      var cs := o.diseaseLookup(p).value;
      && r.Run? && r.rerun
      && r.state.core == s.core.(phase := IsAsking, queue := cs)
      && r.said == Some(Diagnosis(cs[0]))
  {
    var s' := Receive(s, Some(p));
    assert Step(s, Some(p), t, o) == OnRequest(s', p, t, o);
  }

  /** "yes" in IS_ASKING with an empty queue raises IndexError. */
  lemma YesOnEmptyQueueRaises(s: Session, t: Tables, o: Oracles)
    requires s.core.phase == IsAsking && s.core.queue == []
    ensures Step(s, Some("yes"), t, o) == Crash(Receive(s, Some("yes")), IndexOutOfRange)
  {
    var s' := Receive(s, Some("yes"));
    assert Step(s, Some("yes"), t, o) == OnVerdict(s', "yes");
    assert OnVerdict(s', "yes") == Embed(s', Confirm(s'.core));
  }

  /** Together: confirming a good name match raises instead of confirming. */
  lemma UnseededQueue(s: Session, p: string, t: Tables, o: Oracles)
    requires Invariant(s) && s.core.phase == NotAsking && !IsHelp(p) && !IsSummarize(p)
    requires var m := MostSimilarResponse(DiseaseNames(t), p, 1, o.engine);
      m.Ok? && m.value.score >= NameMatchThreshold
    ensures var r := Step(s, Some(p), t, o);
      && r.Run? && r.state.core.phase == IsAsking && r.state.core.queue == []
      && r.said.Some? && r.said.value.Diagnosis?
      && Step(r.state, Some("yes"), t, o) == Crash(Receive(r.state, Some("yes")), IndexOutOfRange)
  {
    NameMatchLeavesQueueEmpty(s, p, t, o);
    YesOnEmptyQueueRaises(Step(s, Some(p), t, o).state, t, o);
  }

  /** The "FALSE" reply test never fires: a run in NOT_ASKING never writes
      the scan-failure notice, whatever the language model answers. */
  lemma RequestNeverReportsFailure(s: Session, p: string, t: Tables, o: Oracles)
    requires s.core.phase == NotAsking
    ensures var r := Step(s, Some(p), t, o);
      r.Run? ==> r.said != Some(ScanFailedNotice) && r.state.core.phase != ScanFailed
  {
    assert Step(s, Some(p), t, o) == OnRequest(Receive(s, Some(p)), p, t, o);
  }

  /** Runs the script on one chat input and then on every `st.rerun()` that
      follows, collecting the messages written, until a run ends without
      rerunning or raises. */
  method Converse(s: Session, input: Option<string>, t: Tables, o: Oracles) returns (r: Run<Session>, said: seq<Message>)
    requires Invariant(s)
    ensures Invariant(r.state)
    ensures r.Run? ==> !r.rerun && AwaitsInput(r.state.core.phase)
  {
    StepPreservesInvariant(s, input, t, o);
    StopsOnlyWhenAwaitingInput(s, input, t, o);
    r := Step(s, input, t, o);
    said := if r.Run? then Spoken(r.said) else [];
    while r.Run? && r.rerun
      invariant Invariant(r.state)
      invariant r.Run? && !r.rerun ==> AwaitsInput(r.state.core.phase)
      decreases if r.Run? && r.rerun then 1 else 0, |r.state.core.queue|, Rank(r.state)
    {
      var prev := r.state;
      StepPreservesInvariant(prev, None, t, o);
      StopsOnlyWhenAwaitingInput(prev, None, t, o);
      RerunDecreases(prev, t, o);
      r := Step(prev, None, t, o);
      if r.Run? {
        said := said + Spoken(r.said);
      }
    }
  }
}

=== FILE: base.dfy ===
/** Values shared by every part of the model: optional values, the Python
    exceptions a script run can end with, and subsequences. */
module Base {

  datatype Option<+T> = None | Some(value: T)

  /** The exceptions the scripts can raise. Streamlit shows the traceback and
      ends the run; session changes made before the raise persist. */
  datatype Fault =
    | IndexOutOfRange   // IndexError: `[0]`, `[1]` or `pop(0)` on a too-short list
    | DivisionByZero    // ZeroDivisionError: likelihood over an empty `current_symptom`
    | RowNotUnique      // ValueError from `.item()`: a selected text is held by several rows
    | MalformedReply    // the language model's reply does not parse as the expected table
    | VectorizerRejected  // ValueError from the TF-IDF vectoriser: over an empty column it
                          // sees the query alone, and `max_df` = 0.5 of one document is below `min_df` = 1

  datatype Result<+T> = Ok(value: T) | Err(fault: Fault)

  /** `a` is obtained from `b` by deleting elements, keeping the order. */
  predicate IsSubsequence<T(==)>(a: seq<T>, b: seq<T>)
    decreases |b|
  {
    if |a| == 0 then true
    else if |b| == 0 then false
    else if a[0] == b[0] then IsSubsequence(a[1..], b[1..])
    else IsSubsequence(a, b[1..])
  }

  lemma {:induction false} SubsequenceReflexive<T>(a: seq<T>)
    ensures IsSubsequence(a, a)
    decreases |a|
  {
    if |a| > 0 {
      SubsequenceReflexive(a[1..]);
    }
  }

  /** A subsequence of `b[1..]` is a subsequence of `b`. */
  lemma {:induction false} SubsequenceOfTail<T>(a: seq<T>, b: seq<T>)
    requires |b| > 0 && IsSubsequence(a, b[1..])
    ensures IsSubsequence(a, b)
    decreases |b|, 0
  {
    if |a| > 0 && a[0] == b[0] {
      DropFirst(a, b[1..]);
    }
  }

  /** Dropping the first element of a subsequence keeps it a subsequence. */
  lemma {:induction false} DropFirst<T>(a: seq<T>, b: seq<T>)
    requires |a| > 0 && IsSubsequence(a, b)
    ensures IsSubsequence(a[1..], b)
    decreases |b|, 1
  {
    if a[0] != b[0] {
      DropFirst(a, b[1..]);
    }
    SubsequenceOfTail(a[1..], b);
  }

  lemma {:induction false} SubsequenceTransitive<T>(a: seq<T>, b: seq<T>, c: seq<T>)
    requires IsSubsequence(a, b) && IsSubsequence(b, c)
    ensures IsSubsequence(a, c)
    decreases |c|
  {
    if |a| > 0 {
      if b[0] == c[0] && a[0] == b[0] {
        SubsequenceTransitive(a[1..], b[1..], c[1..]);
      } else {
        if b[0] == c[0] {
          SubsequenceTransitive(a, b[1..], c[1..]);
        } else {
          SubsequenceTransitive(a, b, c[1..]);
        }
        SubsequenceOfTail(a, c);
      }
    }
  }

  lemma {:induction false} SuffixIsSubsequence<T>(s: seq<T>, k: nat)
    requires k <= |s|
    ensures IsSubsequence(s[k..], s)
    decreases k
  {
    if k == 0 {
      assert s[k..] == s;
      SubsequenceReflexive(s);
    } else {
      SuffixIsSubsequence(s[1..], k - 1);
      assert s[1..][k - 1..] == s[k..];
      SubsequenceOfTail(s[k..], s);
    }
  }

  lemma {:induction false} PrefixIsSubsequence<T>(s: seq<T>, k: nat)
    requires k <= |s|
    ensures IsSubsequence(s[..k], s)
    decreases |s|
  {
    if k > 0 {
      PrefixIsSubsequence(s[1..], k - 1);
      assert s[..k][1..] == s[1..][..k - 1];
    }
  }

  /** The elements of `s` that satisfy `keep`, in order and with their
      multiplicities: a list comprehension `[x for x in s if keep(x)]`. */
  function Filter<T(==,!new)>(keep: T -> bool, s: seq<T>): (r: seq<T>)
    ensures IsSubsequence(r, s)
    ensures forall x :: x in r ==> keep(x)
    ensures forall x :: multiset(r)[x] == if keep(x) then multiset(s)[x] else 0
    decreases |s|
  {
    if |s| == 0 then []
    else
      assert s == [s[0]] + s[1..];
      var rest := Filter(keep, s[1..]);
      if keep(s[0]) then
        assert ([s[0]] + rest)[1..] == rest;
        [s[0]] + rest
      else
        SubsequenceOfTail(rest, s);
        rest
  }

  /** Filtering leaves `s` unchanged exactly when every element is kept. */
  lemma {:induction false} FilterFixes<T(!new)>(keep: T -> bool, s: seq<T>)
    ensures Filter(keep, s) == s <==> forall x :: x in s ==> keep(x)
    decreases |s|
  {
    if |s| > 0 {
      FilterFixes(keep, s[1..]);
      assert s == [s[0]] + s[1..];
      if !keep(s[0]) {
        SubsequenceLength(Filter(keep, s[1..]), s[1..]);
      }
    }
  }

  lemma FilterIdempotent<T(!new)>(keep: T -> bool, s: seq<T>)
    ensures Filter(keep, Filter(keep, s)) == Filter(keep, s)
  {
    FilterFixes(keep, Filter(keep, s));
  }

  lemma {:induction false} SubsequenceLength<T>(a: seq<T>, b: seq<T>)
    requires IsSubsequence(a, b)
    ensures |a| <= |b|
    decreases |b|
  {
    if |a| > 0 {
      if a[0] == b[0] {
        SubsequenceLength(a[1..], b[1..]);
      } else {
        SubsequenceLength(a, b[1..]);
      }
    }
  }

  function Min(a: nat, b: nat): nat
  {
    if a <= b then a else b
  }
}

=== FILE: dialogue.dfy ===
/** The conversation state and the reactions both scripts share.

    Each script keeps its conversation in Streamlit's session state and is
    re-run from the top on every user message and on every `st.rerun()`. A
    run reads the phase (`current_state`) and takes exactly one branch of the
    phase dispatch; `st.rerun()` ends the run at once. The model describes one
    run as a pure function returning a `Run`: the new state, the bot message
    written (if any) and whether the run ended in `st.rerun()`. */
module Dialogue {
  import opened Base
  import opened Text
  import opened Ranking

  /** `current_state`. */
  datatype Phase =
    | NotAsking
    | IsAsking
    | AskingSymptom
    | WaitingSymptomAnswer
    | WaitingSymptomCalculation
    | ScanFailed

  /** A row of the diseases table, by position: `row[0]` name, `row[1]`
      general symptoms, `row[2]` symptoms joined by ", ", `row[3]`
      description, `row[4]` recommendation. */
  datatype Disease = Disease(
    name: string,
    generalSymptoms: string,
    symptomList: string,
    description: string,
    recommendation: string)

  /** A row of the symptoms table: `row[0]` name, `row[1]` explanation. */
  datatype Symptom = Symptom(name: string, explanation: string)

  /** An entry `[row_index, row]` of `possible_diseases`. */
  datatype Candidate = Candidate(row: int, disease: Disease)

  /** `current_symptom`: the empty list, or the pair `[row_index, symptoms not yet asked]`. */
  datatype Checklist = Cleared | Pair(row: int, remaining: seq<string>)

  /** The two read-only tables loaded at start-up. */
  datatype Tables = Tables(diseases: seq<Disease>, symptoms: seq<Symptom>)

  /** Which bot message a run writes; the wording is not modelled. */
  datatype Message =
    | HelpText                                   // "You can start or continue this chat …"
    | SummaryTooShort                            // "This thread is still short …"
    | Summary                                    // the language model's summary of the chat
    | Diagnosis(guess: Candidate)                // "… you may be experiencing X … Is the diagnosis correct?"
    | Confirmed(disease: Candidate)              // "Glad we got it correct! …"
    | Likely(disease: Candidate)                 // "You might be experiencing X …"
    | ScanFailedNotice                           // "We have failed to scan your symptoms …"
    | RestartHint                                // "You can continue this chat …"
    | AskSymptom(symptom: string, explanationRow: nat)  // "Are you experiencing: S? …"

  /** The outcome of one script run: it either ends normally (possibly in
      `st.rerun()`) or raises, keeping the changes made before the raise. */
  datatype Run<S> = Run(state: S, said: Option<Message>, rerun: bool) | Crash(state: S, fault: Fault)

  /** The part of the session both scripts keep: `current_state`,
      `possible_diseases`, `current_symptom`, `experiencing_symptoms`. */
  datatype Core = Core(phase: Phase, queue: seq<Candidate>, checklist: Checklist, confirmed: seq<string>)

  const Fresh := Core(NotAsking, [], Cleared, [])

  // ---------------------------------------------------------------------
  // Commands: exact, case-sensitive matches on two spellings

  predicate IsHelp(p: string)      { p == "help" || p == "Help" }
  predicate IsSummarize(p: string) { p == "summarize" || p == "Summarize" }
  predicate IsStop(p: string)      { p == "stop" || p == "Stop" }
  predicate IsYes(p: string)       { p == "yes" || p == "Yes" }

  // ---------------------------------------------------------------------
  // Tables

  function DiseaseNames(t: Tables): (r: seq<string>)
    ensures |r| == |t.diseases| && forall i :: 0 <= i < |r| ==> r[i] == t.diseases[i].name
  {
    seq(|t.diseases|, i requires 0 <= i < |t.diseases| => t.diseases[i].name)
  }

  function GeneralSymptomTexts(t: Tables): (r: seq<string>)
    ensures |r| == |t.diseases| && forall i :: 0 <= i < |r| ==> r[i] == t.diseases[i].generalSymptoms
  {
    seq(|t.diseases|, i requires 0 <= i < |t.diseases| => t.diseases[i].generalSymptoms)
  }

  function SymptomNames(t: Tables): (r: seq<string>)
    ensures |r| == |t.symptoms| && forall i :: 0 <= i < |r| ==> r[i] == t.symptoms[i].name
  {
    seq(|t.symptoms|, i requires 0 <= i < |t.symptoms| => t.symptoms[i].name)
  }

  /** `[row_index, row]` for a row of the diseases table. */
  function CandidatesAt(t: Tables, rows: seq<nat>): (r: seq<Candidate>)
    requires InRange(rows, |t.diseases|)
    ensures |r| == |rows|
    ensures forall a :: 0 <= a < |r| ==> r[a] == Candidate(rows[a], t.diseases[rows[a]])
  {
    seq(|rows|, a requires 0 <= a < |rows| => Candidate(rows[a], t.diseases[rows[a]]))
  }

  /** The candidate is row `c.row` of the diseases table. */
  predicate IsTableRow(t: Tables, c: Candidate)
  {
    0 <= c.row < |t.diseases| && t.diseases[c.row] == c.disease
  }

  /** Tables every lookup succeeds on: non-empty, and no two rows share a
      value in a column that is looked up, so `.item()` never raises. */
  predicate Usable(t: Tables)
  {
    && |t.diseases| > 0 && |t.symptoms| > 0
    && AllDistinct(DiseaseNames(t))
    && AllDistinct(GeneralSymptomTexts(t))
    && AllDistinct(SymptomNames(t))
  }

  // ---------------------------------------------------------------------
  // Checklist and likelihood

  const ListSeparator: string := ", "

  /** `[row_index, row[2].split(", ")]`: the candidate's symptoms to ask about. */
  function Activate(c: Candidate): (cl: Checklist)
    ensures cl.Pair? && cl.row == c.row
    ensures |cl.remaining| >= 1
    ensures forall k :: 0 <= k < |cl.remaining| ==> Find(cl.remaining[k], ListSeparator).None?
    ensures Join(cl.remaining, ListSeparator) == c.disease.symptomList
  {
    JoinSplit(c.disease.symptomList, ListSeparator);
    Pair(c.row, Split(c.disease.symptomList, ListSeparator))
  }

  /** `len(current_symptom)`: the pair has two elements whatever the checklist holds. */
  function PairLength(cl: Checklist): nat
  {
    if cl.Cleared? then 0 else 2
  }

  const ConfirmationPercent: real := 60.0

  /** Whether the confirmed symptoms make up at least 60% of `len(current_symptom)`,
      with exact arithmetic; an empty `current_symptom` divides by zero. */
  function LikelihoodReached(confirmed: nat, cl: Checklist): (r: Result<bool>)
    ensures r.Err? <==> cl.Cleared?
    ensures r.Err? ==> r.fault == DivisionByZero
    ensures r.Ok? ==> (r.value <==> confirmed >= 2)
  {
    if PairLength(cl) == 0 then Err(DivisionByZero)
    else
      var likelihood := (confirmed as real / PairLength(cl) as real) * 100.0;
      Ok(likelihood >= ConfirmationPercent)
  }

  // ---------------------------------------------------------------------
  // Reactions both scripts share

  /** The reset every ending branch performs. */
  function Reset(c: Core): (r: Core)
    ensures r == Fresh
  {
    c.(phase := NotAsking, queue := [], checklist := Cleared, confirmed := [])
  }

  /** IS_ASKING, "yes": `possible_diseases[0]` is confirmed and the session reset. */
  function Confirm(c: Core): (r: Run<Core>)
    ensures r.Run? <==> |c.queue| > 0
    ensures r.Run? ==> r.state == Fresh && r.said == Some(Confirmed(c.queue[0])) && r.rerun
    ensures r.Crash? ==> r.state == c && r.fault == IndexOutOfRange
  {
    if |c.queue| == 0 then Crash(c, IndexOutOfRange)
    else Run(Reset(c), Some(Confirmed(c.queue[0])), true)
  }

  /** IS_ASKING, any other answer: give up when at most one candidate is
      left, otherwise drop the guess and start on the next candidate's checklist. */
  function Reject(c: Core): (r: Run<Core>)
    ensures r.Run? && r.rerun && r.said.None? && Consistent(r.state)
    ensures r.state.confirmed == c.confirmed
    ensures |c.queue| <= 1 ==> r.state == c.(phase := ScanFailed)
    ensures |c.queue| >= 2 ==>
      && r.state.phase == AskingSymptom
      && [c.queue[0]] + r.state.queue == c.queue
      && r.state.checklist == Activate(c.queue[1])
  {
    if |c.queue| - 1 <= 0 then Run(c.(phase := ScanFailed), None, true)
    else
      var rest := c.queue[1..];
      Run(c.(phase := AskingSymptom, queue := rest, checklist := Activate(rest[0])), None, true)
  }

  /** SCAN_FAILED: report the failure and reset. */
  function FailScan(c: Core): (r: Run<Core>)
    ensures r.Run? && r.state == Fresh && r.said == Some(ScanFailedNotice) && r.rerun
  {
    Run(Reset(c), Some(ScanFailedNotice), true)
  }

  /** WAITING_SYMPTOM_CALCULATION. On success `possible_diseases[0]` is
      reported; otherwise the confirmed symptoms are forgotten and the
      checklist is reloaded from `possible_diseases[0]`. */
  function Calculate(c: Core): (r: Run<Core>)
    ensures c.checklist.Cleared? ==> r == Crash(c, DivisionByZero)
    ensures c.checklist.Pair? && |c.queue| == 0 ==> r.Crash? && r.fault == IndexOutOfRange
    ensures c.checklist.Pair? && |c.queue| > 0 && |c.confirmed| >= 2 ==>
      r == Run(Fresh, Some(Likely(c.queue[0])), true)
    ensures c.checklist.Pair? && |c.queue| > 0 && |c.confirmed| < 2 ==>
      && r.Run? && r.rerun && r.said.None?
      && r.state == Core(AskingSymptom, c.queue, Activate(c.queue[0]), [])
    ensures r.Run? ==> r.rerun && (r.state == Fresh || (r.state.phase == AskingSymptom && r.state.queue == c.queue))
    ensures r.Run? ==> Consistent(r.state)
  {
    match LikelihoodReached(|c.confirmed|, c.checklist)
    case Err(f) => Crash(c, f)
    case Ok(reached) =>
      if reached then
        if |c.queue| == 0 then Crash(c, IndexOutOfRange)
        else Run(Reset(c), Some(Likely(c.queue[0])), true)
      else
        var c' := c.(phase := AskingSymptom, confirmed := []);
        if |c.queue| == 0 then Crash(c', IndexOutOfRange)
        else Run(c'.(checklist := Activate(c.queue[0])), None, true)
  }

  /** ASKING_SYMPTOM with a non-empty queue. An exhausted checklist with one
      candidate left fails the scan; with more left, the front is popped,
      the checklist is reloaded from the popped row, and the likelihood is
      computed next. Otherwise the first remaining symptom is looked up in
      the symptoms table and asked about. */
  function NextSymptom(c: Core, t: Tables, e: Engine, rerunAfterAsking: bool): (r: Run<Core>)
    requires |c.queue| > 0
    ensures c.checklist.Cleared? ==> r == Crash(c, IndexOutOfRange)
    ensures c.checklist.Pair? && |c.checklist.remaining| == 0 && |c.queue| == 1 ==>
      r == Run(c.(phase := ScanFailed), None, true)
    ensures c.checklist.Pair? && |c.checklist.remaining| == 0 && |c.queue| >= 2 ==>
      && r.Run? && r.rerun && r.said.None?
      && r.state.phase == WaitingSymptomCalculation
      && [c.queue[0]] + r.state.queue == c.queue
      && r.state.checklist == Activate(c.queue[0])
      && r.state.confirmed == c.confirmed
    ensures c.checklist.Pair? && |c.checklist.remaining| > 0 && |t.symptoms| > 0 && AllDistinct(SymptomNames(t)) ==>
      && r.Run? && r.rerun == rerunAfterAsking
      && r.state == c.(phase := WaitingSymptomAnswer)
      && r.said.Some? && r.said.value.AskSymptom? && r.said.value.symptom == c.checklist.remaining[0]
      && r.said.value.explanationRow < |t.symptoms|
      && forall j :: 0 <= j < |t.symptoms| ==>
           Scores(e, SymptomNames(t), c.checklist.remaining[0])[j]
           <= Scores(e, SymptomNames(t), c.checklist.remaining[0])[r.said.value.explanationRow]
    ensures r.Crash? ==> r.state == c
    ensures r.Run? ==> Consistent(r.state)
  {
    match c.checklist
    case Cleared => Crash(c, IndexOutOfRange)
    case Pair(_, remaining) =>
      if |remaining| == 0 && |c.queue| - 1 == 0 then Run(c.(phase := ScanFailed), None, true)
      else if |remaining| == 0 then
        var popped := c.queue[0];
        Run(c.(queue := c.queue[1..], checklist := Activate(popped), phase := WaitingSymptomCalculation), None, true)
      else
        match MostSimilarResponse(SymptomNames(t), remaining[0], 1, e)
        case Err(f) => Crash(c, f)
        case Ok(m) =>
          Run(c.(phase := WaitingSymptomAnswer), Some(AskSymptom(remaining[0], m.rows[0])), rerunAfterAsking)
  }

  /** WAITING_SYMPTOM_ANSWER with an answer: the phase goes back to
      ASKING_SYMPTOM and the front symptom leaves the checklist, into
      `experiencing_symptoms` when the answer was "yes". */
  function Answer(c: Core, yes: bool): (r: Run<Core>)
    ensures c.checklist.Pair? && |c.checklist.remaining| > 0 ==>
      && r.Run? && r.rerun && r.said.None?
      && r.state.phase == AskingSymptom && r.state.queue == c.queue
      && r.state.checklist.Pair? && r.state.checklist.row == c.checklist.row
      && [c.checklist.remaining[0]] + r.state.checklist.remaining == c.checklist.remaining
      && r.state.confirmed == c.confirmed + (if yes then [c.checklist.remaining[0]] else [])
    ensures !(c.checklist.Pair? && |c.checklist.remaining| > 0) ==>
      r == Crash(c.(phase := AskingSymptom), IndexOutOfRange)
    ensures r.Run? && |c.queue| > 0 ==> Consistent(r.state)
  {
    var c' := c.(phase := AskingSymptom);
    match c.checklist
    case Cleared => Crash(c', IndexOutOfRange)
    case Pair(row, remaining) =>
      if |remaining| == 0 then Crash(c', IndexOutOfRange)
      else
        var confirmed := if yes then c.confirmed + [remaining[0]] else c.confirmed;
        Run(c'.(checklist := Pair(row, remaining[1..]), confirmed := confirmed), None, true)
  }

  /** Where a question run can lead: to the calculation with one candidate
      fewer, or to SCAN_FAILED or the wait for an answer with the queue unchanged. */
  lemma NextSymptomMoves(c: Core, t: Tables, e: Engine, rerunAfterAsking: bool)
    requires |c.queue| > 0
    ensures var r := NextSymptom(c, t, e, rerunAfterAsking);
      r.Run? ==>
        || (|r.state.queue| < |c.queue| && r.state.phase == WaitingSymptomCalculation)
        || (r.state.queue == c.queue && (r.state.phase == ScanFailed || r.state.phase == WaitingSymptomAnswer))
    ensures var r := NextSymptom(c, t, e, rerunAfterAsking);
      r.Run? && !r.rerun ==> r.state == c.(phase := WaitingSymptomAnswer) && r.said.Some?
  {
    match c.checklist
    case Cleared =>
    case Pair(_, remaining) =>
      if |remaining| == 0 && |c.queue| >= 2 {
        assert |c.queue[1..]| < |c.queue|;
      }
  }

  /** An exhausted checklist followed by a successful calculation reports
      the candidate BEHIND the one just asked about: the pop removes the
      front and the calculation reads the new front. */
  lemma ReportsNextCandidate(c: Core, t: Tables, e: Engine, rerunAfterAsking: bool)
    requires |c.queue| >= 2 && c.checklist.Pair? && c.checklist.remaining == [] && |c.confirmed| >= 2
    ensures var r := NextSymptom(c, t, e, rerunAfterAsking);
      && r.Run? && r.state.phase == WaitingSymptomCalculation
      && Calculate(r.state) == Run(Fresh, Some(Likely(c.queue[1])), true)
  {
    var r := NextSymptom(c, t, e, rerunAfterAsking);
    assert r.state.queue[0] == c.queue[1];
  }

  /** A failed calculation starts over on the new front's checklist with no
      symptom confirmed, while the candidate just asked about is gone. */
  lemma RetriesNextCandidate(c: Core, t: Tables, e: Engine, rerunAfterAsking: bool)
    requires |c.queue| >= 2 && c.checklist.Pair? && c.checklist.remaining == [] && |c.confirmed| < 2
    ensures var r := NextSymptom(c, t, e, rerunAfterAsking);
      && r.Run? && r.state.phase == WaitingSymptomCalculation
      && Calculate(r.state) == Run(Core(AskingSymptom, c.queue[1..], Activate(c.queue[1]), []), None, true)
  {
    var r := NextSymptom(c, t, e, rerunAfterAsking);
    assert r.state.queue == c.queue[1..];
  }

  // ---------------------------------------------------------------------
  // What holds between runs

  /** Which fields are meaningful in which phase, as the branches leave them. */
  predicate Consistent(c: Core)
  {
    match c.phase
    case NotAsking => c.queue == [] && c.checklist == Cleared && c.confirmed == []
    case IsAsking => c.checklist == Cleared && c.confirmed == []
    case AskingSymptom => |c.queue| >= 1 && c.checklist.Pair?
    case WaitingSymptomAnswer => |c.queue| >= 1 && c.checklist.Pair? && |c.checklist.remaining| >= 1
    case WaitingSymptomCalculation => |c.queue| >= 1 && c.checklist.Pair?
    case ScanFailed => true
  }

  /** The phase changes a run that ends normally can make, in either script:
      the conversation's state diagram. */
  predicate Edge(from: Phase, to: Phase)
  {
    match from
    case NotAsking => to == NotAsking || to == IsAsking
    case IsAsking => to == IsAsking || to == NotAsking || to == AskingSymptom || to == ScanFailed
    case ScanFailed => to == NotAsking
    case WaitingSymptomCalculation => to == NotAsking || to == AskingSymptom
    case AskingSymptom =>
      to == AskingSymptom || to == ScanFailed || to == WaitingSymptomCalculation || to == WaitingSymptomAnswer
    case WaitingSymptomAnswer => to == AskingSymptom || to == NotAsking || to == WaitingSymptomAnswer
  }

  /** Phases in which the chain of reruns stops and waits for the user. */
  predicate AwaitsInput(p: Phase)
  {
    p == NotAsking || p == IsAsking || p == WaitingSymptomAnswer
  }
}

=== FILE: local.dfy ===
/** The local-only script, `symptoscan.py`. It keeps only the shared
    conversation state: no chat histories, no "summarize" or "stop"
    commands and no pause latch. Diagnosis guesses are the three best
    matches on the 'General Symptoms' column, and an answer to a symptom
    question is consumed whatever it is. */
module LocalScan {
  import opened Base
  import opened Ranking
  import opened Dialogue

  /** A top match at or below this score (in percent) is no match. */
  const ScanThreshold: real := 10.0

  /** How many candidates a diagnosis request shortlists. */
  const ShortlistSize: nat := 3

  /** One run of the script with the chat input `input` (`None` when the run
      was started by `st.rerun()`). The phase moves along the state diagram,
      and a run that does not rerun leaves the conversation where it was,
      unless it has just asked a symptom question. */
  function Step(c: Core, input: Option<string>, t: Tables, e: Engine): (r: Run<Core>)
    ensures r.Run? ==> Edge(c.phase, r.state.phase)
    ensures r.Run? && !r.rerun ==>
      r.state == c || (c.phase == AskingSymptom && r.state == c.(phase := WaitingSymptomAnswer) && r.said.Some?)
  {
    match c.phase
    case NotAsking =>
      if input.None? then Run(c, None, false) else OnRequest(c, input.value, t, e)
    case IsAsking =>
      if input.None? then Run(c, None, false)
      else if IsYes(input.value) then Confirm(c)
      else Reject(c)
    case ScanFailed => FailScan(c)
    case WaitingSymptomCalculation => Calculate(c)
    case AskingSymptom =>
      if |c.queue| == 0 then Run(c, None, false)
      else
        NextSymptomMoves(c, t, e, false);
        NextSymptom(c, t, e, false)
    case WaitingSymptomAnswer => Answer(c, input.Some? && IsYes(input.value))
  }

  /** NOT_ASKING with a prompt: help, or the three rows whose general
      symptoms best match the prompt, kept when the best score is above the
      threshold. An empty table makes the vectoriser raise before any score
      exists. */
  function OnRequest(c: Core, p: string, t: Tables, e: Engine): (r: Run<Core>)
    requires c.phase == NotAsking
    ensures r.Run? ==> r.rerun && r.said.Some?
    ensures IsHelp(p) ==> r == Run(c, Some(HelpText), true)
    ensures !IsHelp(p) && |t.diseases| == 0 ==> r == Crash(c, VectorizerRejected)
    ensures !IsHelp(p) && MostSimilarResponse(GeneralSymptomTexts(t), p, ShortlistSize, e).Err? ==>
      r == Crash(c, MostSimilarResponse(GeneralSymptomTexts(t), p, ShortlistSize, e).fault)
    ensures !IsHelp(p) && MostSimilarResponse(GeneralSymptomTexts(t), p, ShortlistSize, e).Ok? ==>
      && r.Run?
      && (r.state.phase == IsAsking <==> MostSimilarResponse(GeneralSymptomTexts(t), p, ShortlistSize, e).value.score > ScanThreshold)
    ensures !IsHelp(p) && |t.diseases| > 0 && AllDistinct(GeneralSymptomTexts(t)) ==> r.Run?
    ensures r.Run? && !IsHelp(p) && r.state.phase == NotAsking ==>
      r.state == c && r.said == Some(ScanFailedNotice)
    ensures r.Run? && r.state.phase != NotAsking ==>
      && r.state.phase == IsAsking
      && r.state.checklist == c.checklist && r.state.confirmed == c.confirmed
      && 1 <= |r.state.queue| <= ShortlistSize
      && r.said == Some(Diagnosis(r.state.queue[0]))
      && exists rows :: IsTopK(Scores(e, GeneralSymptomTexts(t), p), ShortlistSize, rows)
                        && InRange(rows, |t.diseases|)
                        && r.state.queue == CandidatesAt(t, rows)
    ensures r.Run? ==> r.state.phase in {NotAsking, IsAsking}
  {
    if IsHelp(p) then Run(c, Some(HelpText), true)
    else
      match MostSimilarResponse(GeneralSymptomTexts(t), p, ShortlistSize, e)
      case Err(f) => Crash(c, f)
      case Ok(m) =>
        var shortlist := CandidatesAt(t, m.rows);
        if m.score <= ScanThreshold then Run(c, Some(ScanFailedNotice), true)
        else Run(c.(phase := IsAsking, queue := shortlist), Some(Diagnosis(shortlist[0])), true)
  }

  // ---------------------------------------------------------------------
  // What holds between runs

  /** The shared consistency, a non-empty shortlist while a guess is
      pending, and a queue of at most three rows of the diseases table. */
  predicate Invariant(c: Core, t: Tables)
  {
    && Consistent(c)
    && (c.phase == IsAsking ==> |c.queue| >= 1)
    && |c.queue| <= ShortlistSize
    && forall a :: 0 <= a < |c.queue| ==> IsTableRow(t, c.queue[a])
  }

  function Rank(c: Core): nat
  {
    match c.phase
    case NotAsking => 0
    case IsAsking => 0
    case ScanFailed => 1
    case WaitingSymptomAnswer => 2
    case AskingSymptom => 2
    case WaitingSymptomCalculation => 3
  }

  function Remaining(c: Core): nat
  {
    if c.checklist.Pair? then |c.checklist.remaining| else 0
  }

  /** A new conversation already keeps the invariant. */
  lemma FreshMeetsInvariant(t: Tables)
    ensures Invariant(Fresh, t)
  {
  }

  /** Over a table whose general-symptom texts are all different, a
      diagnosis request offers a shortlist exactly when some row's general
      symptoms score above the threshold against the prompt; otherwise it
      reports the failed scan. */
  lemma {:induction false} ShortlistIffAboveThreshold(c: Core, p: string, t: Tables, e: Engine)
    requires c.phase == NotAsking && !IsHelp(p)
    requires |t.diseases| > 0 && AllDistinct(GeneralSymptomTexts(t))
    ensures Step(c, Some(p), t, e).Run?
    ensures Step(c, Some(p), t, e).state.phase == IsAsking <==>
      exists j :: 0 <= j < |t.diseases| && 100.0 * Scores(e, GeneralSymptomTexts(t), p)[j] > ScanThreshold
  {
    var texts := GeneralSymptomTexts(t);
    var m := MostSimilarResponse(texts, p, ShortlistSize, e).value;
    var scores := Scores(e, texts, p);
    assert Step(c, Some(p), t, e) == OnRequest(c, p, t, e);
    var best := m.rows[0];
    assert 0 <= best < |t.diseases|;
    if m.score > ScanThreshold {
      assert 100.0 * scores[best] > ScanThreshold;
    } else {
      forall j | 0 <= j < |t.diseases|
        ensures !(100.0 * scores[j] > ScanThreshold)
      {
        assert 100.0 * scores[j] <= m.score;
      }
    }
  }

  /** A diagnosis request keeps the invariant: the shortlist is one to
      three rows of the diseases table. */
  lemma RequestKeepsInvariant(c: Core, p: string, t: Tables, e: Engine)
    requires Invariant(c, t) && c.phase == NotAsking
    ensures Invariant(OnRequest(c, p, t, e).state, t)
  {
    if !IsHelp(p) {
      match MostSimilarResponse(GeneralSymptomTexts(t), p, ShortlistSize, e)
      case Err(_) =>
      case Ok(m) =>
        if m.score > ScanThreshold {
          var q := CandidatesAt(t, m.rows);
          assert OnRequest(c, p, t, e).state == c.(phase := IsAsking, queue := q);
          assert 1 <= |q| <= ShortlistSize;
          assert forall a :: 0 <= a < |q| ==> IsTableRow(t, q[a]);
        }
    }
  }

  /** Dropping the front of a queue of table rows leaves table rows. */
  lemma TailKeepsRows(q: seq<Candidate>, q': seq<Candidate>, t: Tables)
    requires |q| >= 1 && [q[0]] + q' == q
    requires forall a :: 0 <= a < |q| ==> IsTableRow(t, q[a])
    ensures forall a :: 0 <= a < |q'| ==> IsTableRow(t, q'[a])
  {
    forall a | 0 <= a < |q'| ensures IsTableRow(t, q'[a]) {
      assert q'[a] == q[a + 1];
    }
  }

  lemma StepPreservesInvariant(c: Core, input: Option<string>, t: Tables, e: Engine)
    requires Invariant(c, t)
    ensures Invariant(Step(c, input, t, e).state, t)
  {
    var r := Step(c, input, t, e);
    match c.phase
    case NotAsking =>
      if input.Some? {
        assert r == OnRequest(c, input.value, t, e);
        RequestKeepsInvariant(c, input.value, t, e);
      }
    case IsAsking =>
      if input.Some? && !IsYes(input.value) {
        assert r == Reject(c);
        if |c.queue| >= 2 {
          TailKeepsRows(c.queue, r.state.queue, t);
        }
      }
    case ScanFailed =>
    case WaitingSymptomCalculation =>
      assert r == Calculate(c);
    case AskingSymptom =>
      if |c.queue| > 0 {
        assert r == NextSymptom(c, t, e, false);
        NextSymptomMoves(c, t, e, false);
        if r.Run? && r.state.phase == WaitingSymptomCalculation {
          TailKeepsRows(c.queue, r.state.queue, t);
        }
      }
    case WaitingSymptomAnswer =>
      assert r == Answer(c, input.Some? && IsYes(input.value));
  }

  /** A run started by `st.rerun()` that reruns again moves strictly down
      the order (fewer candidates, else a lower rank, else fewer symptoms
      left to ask), so reruns end. */
  lemma RerunDecreases(c: Core, t: Tables, e: Engine)
    ensures var r := Step(c, None, t, e);
      r.Run? && r.rerun ==>
        || |r.state.queue| < |c.queue|
        || (|r.state.queue| == |c.queue| && Rank(r.state) < Rank(c))
        || (|r.state.queue| == |c.queue| && Rank(r.state) == Rank(c) && Remaining(r.state) < Remaining(c))
  {
  }

  /** With usable tables no run raises: the shortlist is never empty while
      a guess is pending and every checklist in use has a front symptom. */
  lemma NeverCrashes(c: Core, input: Option<string>, t: Tables, e: Engine)
    requires Invariant(c, t) && Usable(t)
    ensures Step(c, input, t, e).Run?
  {
  }

  /** Under the invariant, a run that does not rerun leaves the
      conversation in a phase that waits for the user; the only such run
      that changes anything is the one that asks a symptom question. */
  lemma StopsOnlyWhenAwaitingInput(c: Core, input: Option<string>, t: Tables, e: Engine)
    requires Invariant(c, t)
    ensures var r := Step(c, input, t, e);
      r.Run? && !r.rerun ==>
        && AwaitsInput(r.state.phase)
        && (r.state != c ==> c.phase == AskingSymptom && r.state.phase == WaitingSymptomAnswer && r.said.Some?)
  {
  }

  /** In IS_ASKING only "yes"/"Yes" confirms; every other answer, "stop"
      included, rejects the guess. */
  lemma OnlyYesConfirms(c: Core, p: string, t: Tables, e: Engine)
    requires Invariant(c, t) && c.phase == IsAsking
    ensures var r := Step(c, Some(p), t, e);
      && (IsYes(p) ==> r == Run(Fresh, Some(Confirmed(c.queue[0])), true))
      && (!IsYes(p) ==> r.Run? && r.rerun && r.said.None? && r.state.phase in {ScanFailed, AskingSymptom})
      && (!IsYes(p) && |c.queue| <= 1 ==> r.state == c.(phase := ScanFailed))
      && (!IsYes(p) && |c.queue| >= 2 ==>
            r.state == c.(phase := AskingSymptom, queue := c.queue[1..], checklist := Activate(c.queue[1])))
  {
    if !IsYes(p) {
      var r := Step(c, Some(p), t, e);
      assert r == Reject(c);
      if |c.queue| >= 2 {
        assert r.state.queue == c.queue[1..];
      }
    }
  }

  /** The runs that need no input follow the phase alone: SCAN_FAILED fails
      the scan, WAITING_SYMPTOM_CALCULATION calculates, and ASKING_SYMPTOM
      with candidates left asks the next symptom. */
  lemma AutomaticRuns(c: Core, input: Option<string>, t: Tables, e: Engine)
    ensures c.phase == ScanFailed ==> Step(c, input, t, e) == FailScan(c)
    ensures c.phase == WaitingSymptomCalculation ==> Step(c, input, t, e) == Calculate(c)
    ensures c.phase == AskingSymptom && |c.queue| > 0 ==> Step(c, input, t, e) == NextSymptom(c, t, e, false)
    ensures c.phase == AskingSymptom && |c.queue| == 0 ==> Step(c, input, t, e) == Run(c, None, false)
  {
  }

  /** WAITING_SYMPTOM_ANSWER consumes the front symptom on every run,
      without input and on "stop" too; it is recorded as experienced only
      for an input of exactly "yes" or "Yes". */
  lemma AnyInputConsumes(c: Core, input: Option<string>, t: Tables, e: Engine)
    requires Invariant(c, t) && c.phase == WaitingSymptomAnswer
    ensures var r := Step(c, input, t, e);
      && r.Run? && r.rerun && r.state.phase == AskingSymptom
      && [c.checklist.remaining[0]] + r.state.checklist.remaining == c.checklist.remaining
      && (input.Some? && IsYes(input.value) <==> |r.state.confirmed| == |c.confirmed| + 1)
      && r.state.confirmed == c.confirmed + (if input.Some? && IsYes(input.value) then [c.checklist.remaining[0]] else [])
  {
  }

  /** Runs the script on one chat input and then on every `st.rerun()` that
      follows, collecting the messages written, until a run ends without
      rerunning or raises. */
  method Converse(c: Core, input: Option<string>, t: Tables, e: Engine) returns (r: Run<Core>, said: seq<Message>)
    requires Invariant(c, t)
    ensures Invariant(r.state, t)
    ensures r.Run? ==> !r.rerun && AwaitsInput(r.state.phase)
    ensures Usable(t) ==> r.Run?
  {
    StepPreservesInvariant(c, input, t, e);
    StopsOnlyWhenAwaitingInput(c, input, t, e);
    if Usable(t) {
      NeverCrashes(c, input, t, e);
    }
    r := Step(c, input, t, e);
    said := if r.Run? && r.said.Some? then [r.said.value] else [];
    while r.Run? && r.rerun
      invariant Invariant(r.state, t)
      invariant r.Run? && !r.rerun ==> AwaitsInput(r.state.phase)
      invariant Usable(t) ==> r.Run?
      decreases if r.Run? && r.rerun then 1 else 0, |r.state.queue|, Rank(r.state), Remaining(r.state)
    {
      var prev := r.state;
      StepPreservesInvariant(prev, None, t, e);
      StopsOnlyWhenAwaitingInput(prev, None, t, e);
      if Usable(t) {
        NeverCrashes(prev, None, t, e);
      }
      RerunDecreases(prev, t, e);
      r := Step(prev, None, t, e);
      if r.Run? && r.said.Some? {
        said := said + [r.said.value];
      }
    }
  }
}

=== FILE: ranking.dfy ===
/** `get_most_similar_response(df, column, query, top_k)` of both scripts.
    The query is cleaned and filtered, every row of the column is scored
    against it, the `top_k` best rows are picked, the best score is reported
    as a percentage, and each picked text is resolved back to its row.
    The TF-IDF vectoriser and cosine similarity are not modelled: their
    scores come from an engine supplied by the caller. */
module Ranking {
  import opened Base
  import opened Text
  import opened Tokens

  // ---------------------------------------------------------------------
  // Ordering rows by score

  predicate InRange(idx: seq<nat>, n: nat)
  {
    forall a :: 0 <= a < |idx| ==> idx[a] < n
  }

  predicate Distinct(idx: seq<nat>)
  {
    forall a, b :: 0 <= a < b < |idx| ==> idx[a] != idx[b]
  }

  predicate NonIncreasing(scores: seq<real>, idx: seq<nat>)
    requires InRange(idx, |scores|)
  {
    forall a, b :: 0 <= a < b < |idx| ==> scores[idx[a]] >= scores[idx[b]]
  }

  /** What `argsort()[::-1][:k]` returns, whatever order it gives to equal
      scores: `min(k, n)` distinct rows, best first, and no row left out
      scores higher than a row taken. */
  predicate IsTopK(scores: seq<real>, k: nat, idx: seq<nat>)
  {
    && |idx| == Min(k, |scores|)
    && InRange(idx, |scores|)
    && Distinct(idx)
    && NonIncreasing(scores, idx)
    && forall j, a :: 0 <= j < |scores| && j !in idx && 0 <= a < |idx| ==> scores[j] <= scores[idx[a]]
  }

  /** Inserts row `i` into rows ordered by non-increasing score, in front of
      the rows with an equal score. */
  function Insert(scores: seq<real>, idx: seq<nat>, i: nat): (r: seq<nat>)
    requires InRange(idx, |scores|) && i < |scores| && NonIncreasing(scores, idx)
    ensures |r| == |idx| + 1
    ensures forall x :: x in r <==> x in idx || x == i
    ensures InRange(r, |scores|) && NonIncreasing(scores, r)
    ensures Distinct(idx) && i !in idx ==> Distinct(r)
    decreases |idx|
  {
    if |idx| == 0 || scores[i] >= scores[idx[0]] then
      Prepend(scores, i, idx);
      [i] + idx
    else
      var rest := Insert(scores, idx[1..], i);
      assert idx == [idx[0]] + idx[1..];
      HeadDominates(scores, idx, i, rest);
      Prepend(scores, idx[0], rest);
      [idx[0]] + rest
  }

  /** When row `i` scores below the first row of a ranking, that first row
      scores at least as high as anything in the rest with `i` added, and
      is not among them when the ranking is duplicate-free and `i` new. */
  lemma HeadDominates(scores: seq<real>, idx: seq<nat>, i: nat, rest: seq<nat>)
    requires InRange(idx, |scores|) && NonIncreasing(scores, idx) && |idx| > 0
    requires i < |scores| && scores[i] < scores[idx[0]]
    requires forall x :: x in rest <==> x in idx[1..] || x == i
    ensures forall x :: x in rest ==> x < |scores| && scores[idx[0]] >= scores[x]
    ensures Distinct(idx) && i !in idx ==> idx[0] !in rest
  {
    forall x | x in rest
      ensures x < |scores| && scores[idx[0]] >= scores[x]
    {
      if x != i {
        var a :| 0 <= a < |idx[1..]| && idx[1..][a] == x;
        assert idx[a + 1] == x;
      }
    }
    if Distinct(idx) && i !in idx {
      forall a | 0 <= a < |idx[1..]|
        ensures idx[1..][a] != idx[0]
      {
        assert idx[1..][a] == idx[a + 1];
      }
    }
  }

  /** Putting a row in front of a ranking keeps it ordered when the row
      scores at least as high as the ranking's first row, and keeps it
      duplicate-free when the row is new. */
  lemma Prepend(scores: seq<real>, h: nat, rest: seq<nat>)
    requires h < |scores| && InRange(rest, |scores|) && NonIncreasing(scores, rest)
    ensures InRange([h] + rest, |scores|)
    ensures |rest| > 0 && scores[h] >= scores[rest[0]] ==> NonIncreasing(scores, [h] + rest)
    ensures (forall x :: x in rest ==> scores[h] >= scores[x]) ==> NonIncreasing(scores, [h] + rest)
    ensures Distinct(rest) && h !in rest ==> Distinct([h] + rest)
  {
    var r := [h] + rest;
    assert forall a :: 1 <= a < |r| ==> r[a] == rest[a - 1];
  }

  /** Rows `0 .. n-1`, best score first, equal scores highest row first. */
  function RankPrefix(scores: seq<real>, n: nat): (r: seq<nat>)
    requires n <= |scores|
    ensures |r| == n
    ensures forall x: nat :: x in r <==> x < n
    ensures InRange(r, |scores|) && Distinct(r) && NonIncreasing(scores, r)
  {
    if n == 0 then [] else Insert(scores, RankPrefix(scores, n - 1), n - 1)
  }

  /** `similarity_scores.argsort()[0][::-1][:top_k]`. NumPy's default sort
      is not stable, so the order among equal scores is not fixed by the
      source; this model puts the higher row first (what a stable ascending
      sort reversed gives) and states only order-free properties. */
  function TopK(scores: seq<real>, k: nat): (r: seq<nat>)
    ensures IsTopK(scores, k, r)
  {
    var ranked := RankPrefix(scores, |scores|);
    var m := Min(k, |scores|);
    RankingPrefixIsTop(scores, ranked, m);
    ranked[..m]
  }

  /** The first `m` rows of a full ranking are a top-`m` selection: nothing
      behind the cut scores higher than a row before it. */
  lemma RankingPrefixIsTop(scores: seq<real>, ranked: seq<nat>, m: nat)
    requires |ranked| == |scores| && m <= |scores|
    requires forall x: nat :: x in ranked <==> x < |scores|
    requires InRange(ranked, |scores|) && Distinct(ranked) && NonIncreasing(scores, ranked)
    ensures InRange(ranked[..m], |scores|) && Distinct(ranked[..m]) && NonIncreasing(scores, ranked[..m])
    ensures forall j, a :: 0 <= j < |scores| && j !in ranked[..m] && 0 <= a < m ==> scores[j] <= scores[ranked[..m][a]]
  {
    var r := ranked[..m];
    assert forall q :: 0 <= q < m ==> r[q] == ranked[q] && r[q] in r;
    forall j, a | 0 <= j < |scores| && j !in r && 0 <= a < m
      ensures scores[j] <= scores[r[a]]
    {
      assert j in ranked;
      var p :| 0 <= p < |ranked| && ranked[p] == j;
      assert m <= p;
    }
  }

  // ---------------------------------------------------------------------
  // Resolving a picked text back to its row

  /** The rows whose column value is `t`, ascending: `df.loc[df[column] == t]`. */
  function RowsEqual(texts: seq<string>, t: string): (r: seq<nat>)
    ensures forall j: nat :: j in r <==> j < |texts| && texts[j] == t
    ensures forall a, b :: 0 <= a < b < |r| ==> r[a] < r[b]
    decreases |texts|
  {
    if |texts| == 0 then []
    else
      var init := texts[..|texts| - 1];
      var front := RowsEqual(init, t);
      forall a | 0 <= a < |front|
        ensures front[a] < |texts| - 1
      {
        assert front[a] in front;
      }
      assert forall j :: 0 <= j < |init| ==> init[j] == texts[j];
      if texts[|texts| - 1] == t then front + [|texts| - 1] else front
  }

  /** Row `j` is the one and only row whose column value is `t`. */
  predicate UniqueRow(texts: seq<string>, t: string, j: nat)
  {
    j < |texts| && texts[j] == t && forall j' :: 0 <= j' < |texts| && texts[j'] == t ==> j' == j
  }

  /** `df.loc[df[column] == t].index.item()`: `.item()` raises unless exactly one row matches. */
  function Resolve(texts: seq<string>, t: string): (r: Result<nat>)
    ensures r.Ok? ==> UniqueRow(texts, t, r.value)
    ensures r.Err? ==> r.fault == RowNotUnique && forall j: nat :: !UniqueRow(texts, t, j)
  {
    var rows := RowsEqual(texts, t);
    if |rows| == 1 then
      assert rows == [rows[0]] && rows[0] in rows;
      Ok(rows[0])
    else
      assert |rows| >= 2 ==> rows[0] in rows && rows[1] in rows && rows[0] != rows[1];
      Err(RowNotUnique)
  }

  /** Resolves every picked row in turn, as the loop over `most_similar_responses` does. */
  function ResolveAll(texts: seq<string>, picked: seq<nat>): (r: Result<seq<nat>>)
    requires InRange(picked, |texts|)
    ensures r.Ok? ==> r.value == picked
    ensures r.Ok? <==> forall a :: 0 <= a < |picked| ==> UniqueRow(texts, texts[picked[a]], picked[a])
    ensures r.Err? ==> r.fault == RowNotUnique
    decreases |picked|
  {
    if |picked| == 0 then Ok([])
    else
      match Resolve(texts, texts[picked[0]])
      case Err(f) => Err(f)
      case Ok(j) =>
        match ResolveAll(texts, picked[1..])
        case Err(f) => Err(f)
        case Ok(rest) =>
          assert [picked[0]] + picked[1..] == picked;
          Ok([j] + rest)
  }

  predicate AllDistinct(texts: seq<string>)
  {
    forall a, b :: 0 <= a < b < |texts| ==> texts[a] != texts[b]
  }

  // ---------------------------------------------------------------------
  // The whole lookup

  /** What `get_most_similar_response` returns: the picked rows and the best score ×100. */
  datatype Ranked = Ranked(rows: seq<nat>, score: real)

  /** Ranking and resolution over given scores. An empty column makes the
      vectoriser raise; `top_k = 0` fails at `[...][0]` when the score is
      read; a picked text shared by several rows fails at `.item()`. */
  function MostSimilar(texts: seq<string>, scores: seq<real>, k: nat): (r: Result<Ranked>)
    requires |scores| == |texts|
    ensures r.Ok? ==> |texts| > 0 && k > 0 && |r.value.rows| >= 1
    ensures r.Ok? ==> IsTopK(scores, k, r.value.rows)
    ensures r.Ok? ==> r.value.score == 100.0 * scores[r.value.rows[0]]
    ensures r.Ok? ==> forall j :: 0 <= j < |scores| ==> 100.0 * scores[j] <= r.value.score
    ensures |texts| == 0 ==> r == Err(VectorizerRejected)
    ensures |texts| > 0 && k == 0 ==> r == Err(IndexOutOfRange)
    ensures |texts| > 0 && k > 0 && AllDistinct(texts) ==> r.Ok?
    ensures r.Err? && |texts| > 0 && k > 0 ==> r.fault == RowNotUnique && !AllDistinct(texts)
  {
    if |texts| == 0 then Err(VectorizerRejected)
    else if k == 0 then Err(IndexOutOfRange)
    else
      var picked := TopK(scores, k);
      PickedFacts(texts, scores, k, picked);
      match ResolveAll(texts, picked)
      case Err(f) => Err(f)
      case Ok(rows) => Ok(Ranked(rows, 100.0 * scores[picked[0]]))
  }

  /** What the lookup needs of a non-empty top-k selection: its first row
      is the best, scaled by 100 it bounds every scaled score, and in a
      column without repeated values every pick resolves. */
  lemma PickedFacts(texts: seq<string>, scores: seq<real>, k: nat, picked: seq<nat>)
    requires |scores| == |texts| > 0 && k > 0 && IsTopK(scores, k, picked)
    ensures |picked| >= 1
    ensures forall j :: 0 <= j < |scores| ==> 100.0 * scores[j] <= 100.0 * scores[picked[0]]
    ensures AllDistinct(texts) ==> forall a :: 0 <= a < |picked| ==> UniqueRow(texts, texts[picked[a]], picked[a])
  {
    TopIsBest(scores, k, picked);
    DistinctTextsAreUnique(texts, picked);
  }

  /** The first row of a top-k selection scores at least as high as every row. */
  lemma TopIsBest(scores: seq<real>, k: nat, idx: seq<nat>)
    requires IsTopK(scores, k, idx) && |idx| > 0
    ensures forall j :: 0 <= j < |scores| ==> scores[j] <= scores[idx[0]]
  {
    forall j | 0 <= j < |scores|
      ensures scores[j] <= scores[idx[0]]
    {
      if j in idx {
        var a :| 0 <= a < |idx| && idx[a] == j;
        assert a == 0 || scores[idx[0]] >= scores[idx[a]];
      }
    }
  }

  /** In a column without repeated values every picked text has exactly one row. */
  lemma DistinctTextsAreUnique(texts: seq<string>, picked: seq<nat>)
    requires InRange(picked, |texts|)
    ensures AllDistinct(texts) ==> forall a :: 0 <= a < |picked| ==> UniqueRow(texts, texts[picked[a]], picked[a])
  {
    if AllDistinct(texts) {
      forall a, j' | 0 <= a < |picked| && 0 <= j' < |texts| && texts[j'] == texts[picked[a]]
        ensures j' == picked[a]
      {
      }
    }
  }

  /** The collaborators of `get_most_similar_response` that the model does
      not compute: the language pipeline (`nlp`) and the TF-IDF/cosine
      scorer, which scores row `i` of a column against a filtered query. */
  datatype Engine = Engine(nlp: string -> seq<Token>, similarity: (seq<string>, string, nat) -> real)

  /** Every row's score against the query as it reaches the vectoriser:
      cleaned, tokenised and filtered. */
  function Scores(e: Engine, texts: seq<string>, query: string): (r: seq<real>)
    ensures |r| == |texts|
    ensures forall i :: 0 <= i < |texts| ==> r[i] == e.similarity(texts, FilteredQuery(e.nlp(CleanQuery(query))), i)
  {
    var q := FilteredQuery(e.nlp(CleanQuery(query)));
    seq(|texts|, i requires 0 <= i < |texts| => e.similarity(texts, q, i))
  }

  /** Only the query that reaches the vectoriser matters: two queries that
      clean and filter to the same text get the same scores on every row. */
  lemma SameFilteredQuerySameScores(e: Engine, texts: seq<string>, q1: string, q2: string)
    requires FilteredQuery(e.nlp(CleanQuery(q1))) == FilteredQuery(e.nlp(CleanQuery(q2)))
    ensures Scores(e, texts, q1) == Scores(e, texts, q2)
  {
  }

  /** `get_most_similar_response(df, column, query, top_k)` over the column `texts`. */
  function MostSimilarResponse(texts: seq<string>, query: string, k: nat, e: Engine): (r: Result<Ranked>)
    ensures r.Ok? ==> IsTopK(Scores(e, texts, query), k, r.value.rows) && |r.value.rows| >= 1
    ensures r.Ok? ==> r.value.score == 100.0 * Scores(e, texts, query)[r.value.rows[0]]
    ensures r.Ok? ==> forall j :: 0 <= j < |texts| ==> 100.0 * Scores(e, texts, query)[j] <= r.value.score
    ensures |texts| == 0 ==> r == Err(VectorizerRejected)
    ensures |texts| > 0 && k == 0 ==> r == Err(IndexOutOfRange)
    ensures |texts| > 0 && k > 0 && AllDistinct(texts) ==> r.Ok?
    ensures r.Err? && |texts| > 0 && k > 0 ==> r.fault == RowNotUnique && !AllDistinct(texts)
  {
    MostSimilar(texts, Scores(e, texts, query), k)
  }
}

=== FILE: text.dfy ===
/** The string operations the two scripts rely on: Python's `str.split` and
    `str.join` on a separator, `str.strip`, and the regular-expression
    substitution that deletes every character outside an allowed class
    from a stripped query before it is ranked. */
module Text {
  import opened Base

  // ---------------------------------------------------------------------
  // Separators

  /** `sep` occurs in `s` starting at position `i`. */
  predicate OccursAt(s: string, sep: string, i: nat)
  {
    i + |sep| <= |s| && s[i..i + |sep|] == sep
  }

  /** The leftmost occurrence of `sep` in `s`, the position `str.split` cuts at. */
  function Find(s: string, sep: string): (r: Option<nat>)
    requires |sep| > 0
    ensures r.Some? ==> OccursAt(s, sep, r.value)
    ensures r.Some? ==> forall j: nat :: j < r.value ==> !OccursAt(s, sep, j)
    ensures r.None? ==> forall j: nat :: !OccursAt(s, sep, j)
    decreases |s|
  {
    if |s| < |sep| then None
    else if s[..|sep|] == sep then Some(0)
    else
      ShiftOccurrence(s, sep);
      match Find(s[1..], sep)
      case None => None
      case Some(i) => Some(i + 1)
  }

  /** Occurrences in `s` past its first character are the occurrences in `s[1..]`, shifted by one. */
  lemma ShiftOccurrence(s: string, sep: string)
    requires |s| >= 1
    ensures OccursAt(s, sep, 0) <==> |sep| <= |s| && s[..|sep|] == sep
    ensures forall j: nat :: 1 <= j ==> (OccursAt(s, sep, j) <==> OccursAt(s[1..], sep, j - 1))
  {
    forall j: nat | 1 <= j
      ensures OccursAt(s, sep, j) <==> OccursAt(s[1..], sep, j - 1)
    {
      if j + |sep| <= |s| {
        assert s[1..][j - 1..j - 1 + |sep|] == s[j..j + |sep|];
      }
    }
  }

  /** Python's `s.split(sep)` for a non-empty separator: cut at every
      leftmost, non-overlapping occurrence of `sep`. */
  function Split(s: string, sep: string): (pieces: seq<string>)
    requires |sep| > 0
    ensures |pieces| >= 1
    ensures forall k :: 0 <= k < |pieces| ==> Find(pieces[k], sep).None?
    decreases |s|
  {
    match Find(s, sep)
    case None => [s]
    case Some(i) =>
      PieceBeforeFirstIsFree(s, sep, i);
      [s[..i]] + Split(s[i + |sep|..], sep)
  }

  /** The text before the leftmost occurrence of `sep` does not contain `sep`. */
  lemma PieceBeforeFirstIsFree(s: string, sep: string, i: nat)
    requires |sep| > 0 && i <= |s|
    requires forall j: nat :: j < i ==> !OccursAt(s, sep, j)
    ensures Find(s[..i], sep).None?
  {
    var p := s[..i];
    forall j: nat ensures !OccursAt(p, sep, j) {
      if j + |sep| <= |p| {
        forall k | j <= k < j + |sep|
          ensures p[k] == s[k]
        {
        }
        assert p[j..j + |sep|] == s[j..j + |sep|];
        assert !OccursAt(s, sep, j);
      }
    }
  }

  /** Python's `sep.join(pieces)`. */
  function Join(pieces: seq<string>, sep: string): string
    decreases |pieces|
  {
    if |pieces| == 0 then ""
    else if |pieces| == 1 then pieces[0]
    else pieces[0] + sep + Join(pieces[1..], sep)
  }

  /** A joined text starts with the first piece, followed by the separator
      when more pieces follow, and ends with the last piece. */
  lemma {:induction false} JoinEnds(pieces: seq<string>, sep: string)
    ensures |pieces| == 0 ==> Join(pieces, sep) == ""
    ensures |pieces| >= 1 ==> pieces[0] <= Join(pieces, sep)
    ensures |pieces| >= 2 ==> pieces[0] + sep <= Join(pieces, sep)
    ensures |pieces| >= 1 ==>
      var r := Join(pieces, sep);
      |pieces[|pieces| - 1]| <= |r| && r[|r| - |pieces[|pieces| - 1]|..] == pieces[|pieces| - 1]
    decreases |pieces|
  {
    if |pieces| >= 2 {
      var head, last := pieces[0] + sep, pieces[|pieces| - 1];
      var rest := Join(pieces[1..], sep);
      assert Join(pieces, sep) == head + rest;
      JoinEnds(pieces[1..], sep);
      assert pieces[1..][|pieces[1..]| - 1] == last;
      SuffixOfAppend(head, rest, last);
      assert pieces[0] <= head;
    }
  }

  /** A suffix of `b` is a suffix of `a + b`. */
  lemma SuffixOfAppend(a: string, b: string, x: string)
    requires |x| <= |b| && b[|b| - |x|..] == x
    ensures |x| <= |a + b| && (a + b)[|a + b| - |x|..] == x
  {
    var ab := a + b;
    forall k | 0 <= k < |x|
      ensures ab[|ab| - |x| + k] == x[k]
    {
      assert ab[|ab| - |x| + k] == b[|b| - |x| + k];
    }
  }

  /** Joining the pieces of a split gives back the original text. */
  lemma {:induction false} JoinSplit(s: string, sep: string)
    requires |sep| > 0
    ensures Join(Split(s, sep), sep) == s
    decreases |s|
  {
    match Find(s, sep)
    case None =>
    case Some(i) =>
      var rest := Split(s[i + |sep|..], sep);
      assert Split(s, sep) == [s[..i]] + rest;
      JoinSplit(s[i + |sep|..], sep);
      assert ([s[..i]] + rest)[1..] == rest;
      assert s == s[..i] + s[i..i + |sep|] + s[i + |sep|..];
  }

  /** No proper suffix of `sep` is also a prefix of it, so two occurrences
      of `sep` can never overlap (true of ", " and of " "). */
  predicate Unbordered(sep: string)
  {
    forall d :: 0 < d < |sep| ==> sep[d..] != sep[..|sep| - d]
  }

  /** A piece free of an unbordered separator ends exactly where the separator after it starts. */
  lemma FindAfterFreePiece(p: string, sep: string, rest: string)
    requires |sep| > 0 && Unbordered(sep) && Find(p, sep).None?
    ensures Find(p + sep + rest, sep) == Some(|p|)
  {
    var t := p + sep + rest;
    assert t[|p|..|p| + |sep|] == sep;
    assert OccursAt(t, sep, |p|);
    forall j: nat | j < |p|
      ensures !OccursAt(t, sep, j)
    {
      if j + |sep| <= |p| {
        assert t[j..j + |sep|] == p[j..j + |sep|];
        assert !OccursAt(p, sep, j);
      } else {
        // an occurrence straddling the end of `p` would make a proper
        // suffix of `sep` equal a proper prefix, which Unbordered rules out
        StraddleMeansBorder(p, sep, rest, j);
      }
    }
  }

  lemma StraddleMeansBorder(p: string, sep: string, rest: string, j: nat)
    requires j < |p| < j + |sep|
    ensures OccursAt(p + sep + rest, sep, j) ==> sep[|p| - j..] == sep[..|sep| - (|p| - j)]
  {
    var t := p + sep + rest;
    var d := |p| - j;
    if OccursAt(t, sep, j) {
      forall k | 0 <= k < |sep| - d
        ensures sep[d..][k] == sep[..|sep| - d][k]
      {
        assert sep[d + k] == t[j + d + k];
        assert t[|p| + k] == sep[k];
      }
    }
  }

  /** Splitting a join of separator-free pieces gives back the pieces: with
      `Join`, `Split` is a bijection between texts and such piece lists. */
  lemma {:induction false} SplitJoin(pieces: seq<string>, sep: string)
    requires |sep| > 0 && Unbordered(sep) && |pieces| >= 1
    requires forall k :: 0 <= k < |pieces| ==> Find(pieces[k], sep).None?
    ensures Split(Join(pieces, sep), sep) == pieces
    decreases |pieces|
  {
    if |pieces| > 1 {
      var p := pieces[0];
      var rest := Join(pieces[1..], sep);
      FindAfterFreePiece(p, sep, rest);
      var t := p + sep + rest;
      assert t[..|p|] == p;
      assert t[|p| + |sep|..] == rest;
      SplitJoin(pieces[1..], sep);
      assert Split(t, sep) == [p] + pieces[1..];
    }
  }

  // ---------------------------------------------------------------------
  // Whitespace

  /** `\s` of the `regex` module: the Unicode White_Space characters. */
  predicate IsPatternSpace(c: char)
  {
    var n := c as int;
    (0x09 <= n <= 0x0D) || n == 0x20 || n == 0x85 || n == 0xA0 || n == 0x1680
    || (0x2000 <= n <= 0x200A) || n == 0x2028 || n == 0x2029 || n == 0x202F
    || n == 0x205F || n == 0x3000
  }

  /** What `str.strip()` removes (`str.isspace`): White_Space plus the
      information separators U+001C..U+001F. */
  predicate IsStripSpace(c: char)
  {
    IsPatternSpace(c) || (0x1C <= c as int <= 0x1F)
  }

  function DropLeading(s: string): (r: string)
    ensures |r| <= |s|
    ensures r == s[|s| - |r|..]
    ensures forall k :: 0 <= k < |s| - |r| ==> IsStripSpace(s[k])
    ensures |r| > 0 ==> !IsStripSpace(r[0])
    decreases |s|
  {
    if |s| > 0 && IsStripSpace(s[0]) then
      var r := DropLeading(s[1..]);
      forall k | 1 <= k < |s| - |r|
        ensures IsStripSpace(s[k])
      {
        assert s[k] == s[1..][k - 1];
      }
      assert s[1..][|s| - 1 - |r|..] == s[|s| - |r|..];
      r
    else s
  }

  function DropTrailing(s: string): (r: string)
    ensures |r| <= |s|
    ensures r == s[..|r|]
    ensures forall k :: |r| <= k < |s| ==> IsStripSpace(s[k])
    ensures |r| > 0 ==> !IsStripSpace(r[|r| - 1])
    decreases |s|
  {
    if |s| > 0 && IsStripSpace(s[|s| - 1]) then DropTrailing(s[..|s| - 1]) else s
  }

  /** Everything of `s` before position `i` and from position `j` on is whitespace. */
  predicate OnlySpaceOutside(s: string, i: nat, j: nat)
    requires i <= j <= |s|
  {
    (forall k :: 0 <= k < i ==> IsStripSpace(s[k])) && (forall k :: j <= k < |s| ==> IsStripSpace(s[k]))
  }

  /** The two trims together cut whitespace only, at both ends. */
  lemma StripCutsSpaceOnly(s: string, tail: string, r: string)
    requires |tail| <= |s| && tail == s[|s| - |tail|..]
    requires forall k :: 0 <= k < |s| - |tail| ==> IsStripSpace(s[k])
    requires |r| <= |tail| && r == tail[..|r|]
    requires forall k :: |r| <= k < |tail| ==> IsStripSpace(tail[k])
    ensures |s| - |tail| + |r| <= |s|
    ensures r == s[|s| - |tail|..|s| - |tail| + |r|]
    ensures OnlySpaceOutside(s, |s| - |tail|, |s| - |tail| + |r|)
  {
    var i := |s| - |tail|;
    var j := i + |r|;
    assert tail == s[i..];
    assert r == tail[..|r|];
    forall k | 0 <= k < |r|
      ensures r[k] == s[i..j][k]
    {
      assert r[k] == tail[k];
    }
    assert r == s[i..j];
    forall k | j <= k < |s|
      ensures IsStripSpace(s[k])
    {
      assert s[k] == tail[k - i];
    }
    assert OnlySpaceOutside(s, i, j);
  }

  /** Python's `s.strip()`: the slice of `s` that neither starts nor ends
      with whitespace, everything cut off being whitespace. */
  function Strip(s: string): (r: string)
    ensures |r| > 0 ==> !IsStripSpace(r[0]) && !IsStripSpace(r[|r| - 1])
    ensures exists i: nat, j: nat :: i <= j <= |s| && r == s[i..j] && OnlySpaceOutside(s, i, j)
    ensures IsSubsequence(r, s)
  {
    var tail := DropLeading(s);
    var r := DropTrailing(tail);
    StripCutsSpaceOnly(s, tail, r);
    PrefixIsSubsequence(tail, |r|);
    SuffixIsSubsequence(s, |s| - |tail|);
    SubsequenceTransitive(r, tail, s);
    r
  }

  // ---------------------------------------------------------------------
  // Special-character filter

  /** The character class `[a-zA-z0-9\s(\)\[\]\{\}]`. The range `A-z` runs
      from U+0041 to U+007A and so also admits `[ \ ] ^ _` and the backtick. */
  predicate Allowed(c: char)
  {
    ('a' <= c <= 'z') || ('A' <= c <= 'z') || ('0' <= c <= '9') || IsPatternSpace(c)
    || c == '(' || c == ')' || c == '[' || c == ']' || c == '{' || c == '}'
  }

  /** `re.sub(pattern, '', s)` with the negated class above. */
  function RemoveSpecial(s: string): (r: string)
    ensures IsSubsequence(r, s)
    ensures forall c :: c in r ==> Allowed(c)
    ensures forall c :: multiset(r)[c] == if Allowed(c) then multiset(s)[c] else 0
  {
    Filter(Allowed, s)
  }

  /** Applying the filter twice is the same as applying it once, and it
      leaves a text unchanged exactly when every character is allowed. */
  lemma RemoveSpecialIdempotent(s: string)
    ensures RemoveSpecial(RemoveSpecial(s)) == RemoveSpecial(s)
    ensures RemoveSpecial(s) == s <==> forall c :: c in s ==> Allowed(c)
  {
    FilterIdempotent(Allowed, s);
    FilterFixes(Allowed, s);
  }

  /** The whole query cleaning of `get_most_similar_response`: strip, then filter. */
  function CleanQuery(query: string): (r: string)
    ensures IsSubsequence(r, query)
    ensures IsSubsequence(r, Strip(query))
    ensures forall c :: c in r ==> Allowed(c)
    ensures forall c :: multiset(r)[c] == if Allowed(c) then multiset(Strip(query))[c] else 0
  {
    var stripped := Strip(query);
    var r := RemoveSpecial(stripped);
    SubsequenceTransitive(r, stripped, query);
    r
  }

  /** Cleaning is not idempotent: removing a special character can expose
      whitespace at an end that the earlier strip never saw. */
  lemma CleanQueryNotIdempotent()
    ensures CleanQuery("! a") == " a"
    ensures CleanQuery(CleanQuery("! a")) == "a"
  {
    StripExample();
    FilterExample();
  }

  lemma StripExample()
    ensures Strip("! a") == "! a" && Strip(" a") == "a"
  {
    LeadingExample();
    TrailingExample();
  }

  lemma LeadingExample()
    ensures DropLeading("! a") == "! a" && DropLeading(" a") == "a"
  {
    assert !IsStripSpace('!');
    assert IsStripSpace(' ') && !IsStripSpace('a');
    assert " a"[1..] == "a";
  }

  lemma TrailingExample()
    ensures DropTrailing("! a") == "! a" && DropTrailing("a") == "a"
  {
    assert !IsStripSpace('a');
  }

  lemma FilterExample()
    ensures RemoveSpecial("! a") == " a" && RemoveSpecial("a") == "a"
  {
    FilterFixes(Allowed, "a");
    FilterFixes(Allowed, " a");
    assert "! a"[1..] == " a";
  }

  /** The characters between `Z` and `a` pass the filter because of the `A-z` range. */
  lemma CaretUnderscoreBacktickSurvive()
    ensures RemoveSpecial("^_`\\") == "^_`\\"
  {
    FilterFixes(Allowed, "^_`\\");
  }
}

=== FILE: tokens.dfy ===
/** The stop-word and part-of-speech filter applied to a cleaned query: the
    texts of the tokens that survive it, joined by single spaces.
    The tokens, their stop-word flags and their tags come from the language
    pipeline, which is not modelled: they arrive as token records. */
module Tokens {
  import opened Base
  import opened Text

  /** One token of `nlp(query)`: `token.text`, `token.is_stop`, `token.pos_`. */
  datatype Token = Token(text: string, isStop: bool, pos: string)

  /** `remove_pos`: pronouns, proper nouns, auxiliaries, coordinating conjunctions, numerals. */
  const RemovedPos: set<string> := {"PRON", "PROPN", "AUX", "CCONJ", "NUM"}

  predicate Kept(t: Token)
  {
    !t.isStop || t.pos !in RemovedPos
  }

  function Texts(doc: seq<Token>): (r: seq<string>)
    ensures |r| == |doc|
    ensures forall i :: 0 <= i < |doc| ==> r[i] == doc[i].text
  {
    seq(|doc|, i requires 0 <= i < |doc| => doc[i].text)
  }

  /** The filtered query handed to the vectoriser. */
  function FilteredQuery(doc: seq<Token>): string
  {
    Join(Texts(Filter(Kept, doc)), " ")
  }

  /** The filtered query is empty when no token is kept, and otherwise
      starts with the first kept token's text and ends with the last one's. */
  lemma FilteredQueryEnds(doc: seq<Token>, kept: seq<Token>)
    requires kept == Filter(Kept, doc)
    ensures kept == [] ==> FilteredQuery(doc) == ""
    ensures |kept| >= 1 ==> kept[0].text <= FilteredQuery(doc)
    ensures |kept| >= 1 ==>
      |kept[|kept| - 1].text| <= |FilteredQuery(doc)|
      && FilteredQuery(doc)[|FilteredQuery(doc)| - |kept[|kept| - 1].text|..] == kept[|kept| - 1].text
  {
    SpacedTextsEnds(kept);
  }

  /** The space-join of some tokens' texts starts with the first text and ends with the last. */
  lemma SpacedTextsEnds(kept: seq<Token>)
    ensures kept == [] ==> Join(Texts(kept), " ") == ""
    ensures |kept| >= 1 ==> kept[0].text <= Join(Texts(kept), " ")
    ensures |kept| >= 1 ==>
      var r := Join(Texts(kept), " ");
      var last := kept[|kept| - 1].text;
      |last| <= |r| && r[|r| - |last|..] == last
  {
    var words := Texts(kept);
    JoinEnds(words, " ");
    assert |kept| >= 1 ==> words[0] == kept[0].text && words[|words| - 1] == kept[|kept| - 1].text;
  }

  /** A token of the document is dropped exactly when it is a stop word AND
      its tag is one of the removed classes; the kept ones stay in order. */
  lemma KeptTokensSpec(doc: seq<Token>, t: Token)
    requires t in doc
    ensures t in Filter(Kept, doc) <==> !(t.isStop && t.pos in RemovedPos)
    ensures IsSubsequence(Filter(Kept, doc), doc)
  {
    assert multiset(doc)[t] > 0;
  }

  /** A one-character separator occurs in a text exactly when the character does. */
  lemma FindSingle(w: string, c: char)
    ensures Find(w, [c]).None? <==> c !in w
  {
    if c in w {
      var j :| 0 <= j < |w| && w[j] == c;
      assert w[j..j + 1] == [c];
      assert OccursAt(w, [c], j);
    } else {
      forall j: nat
        ensures !OccursAt(w, [c], j)
      {
        if j < |w| {
          assert w[j..j + 1][0] != [c][0];
        }
      }
    }
  }

  /** When no kept token contains a space, splitting the filtered query on
      single spaces gives back exactly the kept tokens' texts. */
  lemma FilteredQueryWords(doc: seq<Token>)
    requires |Filter(Kept, doc)| >= 1
    requires forall t :: t in Filter(Kept, doc) ==> ' ' !in t.text
    ensures Split(FilteredQuery(doc), " ") == Texts(Filter(Kept, doc))
  {
    var words := Texts(Filter(Kept, doc));
    forall k | 0 <= k < |words|
      ensures Find(words[k], " ").None?
    {
      assert Filter(Kept, doc)[k] in Filter(Kept, doc);
      FindSingle(words[k], ' ');
    }
    SplitJoin(words, " ");
  }
}
